=== FILE: README.md ===
# Dental benchmark grading and resumable runs, in Dafny

This project models the core of a small benchmarking toolkit. The toolkit asks
language models multiple-choice dental questions (MedMCQA rows) and a yes/no
distress question (Dreaddit rows), grades the replies, and stores the results so
that an interrupted run can be resumed. The model covers:

- **The one-pass grader** of `DentalBenchmark` (module `BenchmarkBase`). It reads
  an option letter from a free-text reply: first an explicit answer phrase, then
  the first of A, B, C, D that occurs. It grades the letter against the 1-based
  `cop` field and records one result per question, or `ERROR` when the query
  raises.
- **The resumable OpenAI run** (module `OpenAIBenchmark`). It counts the data rows
  already in the results CSV, resumes after them, and runs at most `limit` more
  questions.
- **The retrying local-service call** shared by both local scripts (module
  `LocalApi`), and the one-attempt connection probe.
- **The local dental run** (module `AgirDental`). It loads the JSON-lines dataset
  and skips malformed lines. It grades with the letter-priority scan and a 0-based
  `cop`, and appends results to a JSON file. After a success at every fifth item
  of its work list, or at the last item, it writes a checkpoint holding the
  current dataset index. A later run restarts from that index. It also computes per-answer metrics.
- **The local distress-classification run** (module `AgirBinary`). It predicts a
  0/1 label and appends rows to a CSV that gets a header when the file is created.
  It resumes after the first dataset row carrying the last saved id, applies the
  optional entry cap, and counts the rows for its metrics.
- **The dataset splitter** (module `SubjectSplit`). It cleans subject names into
  file names, builds the per-split file name, groups the samples of a split by
  subject in first-appearance order, and collects the set of all subjects.

Shared helpers:
- `Text`: ASCII case mapping, Python's `in`, `find`, `strip()` and `str(int)`.
- `Labels`: the option letters and the `UNKNOWN`, `ERROR` and `INVALID` labels.
- `Tally`: counting and filtering.
- `Slices`: Python's `s[start:]` and the `s[:limit]` cap.
- `Wrappers`: `Option`.

The model takes no input from the outside world. Model replies, HTTP outcomes and
file contents are parameters:
- A model's answer to question `i` is `query(i)`.
- What the local service does on attempt `k` for work item `i` is `service(i)(k)`.
- A file is a datatype that is absent, unreadable, or holds its parsed content.

## Model

| member | source | states |
|---|---|---|
| BenchmarkBase.PatternLetter | src/dental/benchmark_base.py:75-79 | For the first position where the phrase occurs (no occurrence before it), the result is the option letter the next character names, or none when that character is not A-D or the phrase ends the reply. There is none when the phrase is absent. |
| BenchmarkBase.PatternScan | src/dental/benchmark_base.py:74-79 | The result is the letter of the first phrase, in list order, that is followed by an option letter. It is nothing when no phrase is. |
| BenchmarkBase.ExtractAnswerChoice | src/dental/benchmark_base.py:60-86 | `UNKNOWN` exactly when no A-D occurs in the upper-cased reply. The first phrase with a letter after it decides. Without one, the chosen letter has no higher-priority letter anywhere in the reply. |
| BenchmarkBase.ExtractIgnoresCase | src/dental/benchmark_base.py:62 | A reply and its upper-cased form extract the same label. |
| BenchmarkBase.EvaluateAnswer | src/dental/benchmark_base.py:88-92 | Correct exactly when the label is a letter whose 1-based position is `cop`. It needs `cop` in 1..4 and is never true for `UNKNOWN` or `ERROR`. |
| BenchmarkBase.GradeReply | src/dental/benchmark_base.py:117-151 | A raised query gives `ERROR`, not correct, with the response "Error: " plus the message. An answer is extracted and graded against `cop`. Topic and subject default to "" and "Dental" when the row lacks the key. |
| BenchmarkBase.RunBenchmark | src/dental/benchmark_base.py:99-171 | One result per question, in dataset order, each the graded reply to that question. Raised queries give `ERROR`. `correct_answers` is the number of results marked correct. |
| BenchmarkBase.WordedAnswerExample | src/dental/benchmark_base.py:65-79 | "The answer is B." is read through "ANSWER IS " as B, and is correct for `cop` 2. |
| BenchmarkBase.NonAnswerExample | src/dental/benchmark_base.py:81-86 | A reply with no option letter is `UNKNOWN` and never correct. |
| BenchmarkBase.SingleLetterResponse | src/dental/benchmark_base.py:60-86 | A reply that upper-cases to a single option letter is read as that letter: no phrase fits in it, so the fallback scan finds the letter. |
| BenchmarkBase.LowerCaseExample | src/dental/benchmark_base.py:62 | Matching is case-insensitive: "d" is D, which is correct for `cop` 4. |
| OpenAIBenchmark.CompletedCount | src/dental/openai_benchmark_base.py:101-115 | The CSV's rows minus the header. It is 0 for a missing, unreadable or empty file. |
| OpenAIBenchmark.QuestionsToRun | src/dental/openai_benchmark_base.py:152-156 | The whole remainder when `limit` is `None` or 0, otherwise `min(limit, remaining)`. |
| OpenAIBenchmark.Segment | src/dental/openai_benchmark_base.py:169-217 | One record per index of the range and a running tally no larger than the record count. |
| OpenAIBenchmark.SegmentTally | src/dental/openai_benchmark_base.py:182-183 | The running `correct_answers` equals the number of records marked correct. |
| OpenAIBenchmark.SegmentIndices | src/dental/openai_benchmark_base.py:169-217 | Record `k` is the graded reply for index `lo + k`, in ascending order. |
| OpenAIBenchmark.SegmentSplit | src/dental/openai_benchmark_base.py:169 | Running `[a, b)` and then `[b, c)` gives the records of running `[a, c)`. |
| OpenAIBenchmark.WorkEnd | src/dental/openai_benchmark_base.py:152-159 | The range starts at the resume point and never passes the dataset's end. A positive limit bounds its length, and a negative limit empties it. |
| OpenAIBenchmark.Run | src/dental/openai_benchmark_base.py:117-245 | `already_completed` with nothing run when every question is counted. Otherwise the records of the resumed range, and the completed and new counts. |
| OpenAIBenchmark.RunTally | src/dental/openai_benchmark_base.py:182-183 | A run's reported correct answers are its records marked correct. |
| OpenAIBenchmark.RunRecordAt | src/dental/openai_benchmark_base.py:169-217 | Record `k` is for dataset index `completed + k`. A raised query gives an `ERROR` record that is not correct. |
| OpenAIBenchmark.FullRunThenAlreadyCompleted | src/dental/openai_benchmark_base.py:134-148 | After an unlimited run has appended its records, the next run finds everything completed. |
| OpenAIBenchmark.LimitedThenResumed | src/dental/openai_benchmark_base.py:152-169 | A limited run followed by a resumed one covers the same indices in the same order as one unlimited run. |
| OpenAIBenchmark.NegativeLimitReportsNegativeProgress | src/dental/openai_benchmark_base.py:152-156 | A negative limit is truthy, so nothing is queried and `new_questions` is negative. |
| LocalApi.TryFrom | src/dental/agir/agir_dental_benchmark.py:105-133 | Failed requests and other exceptions are retried up to the bound. A well-formed reply stops the loop, and the text returned is the stripped text of the last attempt. |
| LocalApi.CallLocalApi | src/dental/agir/agir_dental_benchmark.py:94-133 | At most `max_retries` attempts, and at least one when the bound is positive. Every attempt but the last was retryable. Text comes back exactly when the last attempt completed, and is stripped. |
| LocalApi.UnexpectedShapeNotRetried | src/dental/agir/agir_dental_benchmark.py:113-117 | A reply without choices ends the call after one attempt with `None`. |
| LocalApi.TestApiConnection | src/dental/agir/agir_dental_benchmark.py:271-285 | The probe succeeds exactly when its single attempt returns text. |
| AgirDental.ParseLines | src/dental/agir/agir_dental_benchmark.py:44-51 | Rows plus malformed lines make up the file. A row is loaded exactly when its line parsed. |
| AgirDental.ParseLinesConcat | src/dental/agir/agir_dental_benchmark.py:46-51 | Loading is line by line: the rows of a concatenation are the rows of its parts. |
| AgirDental.LoadDataset | src/dental/agir/agir_dental_benchmark.py:39-54 | A missing file is the raised `FileNotFoundError`. Otherwise the parsed rows, with malformed lines skipped. |
| AgirDental.GetLastProcessedIndex | src/dental/agir/agir_dental_benchmark.py:56-67 | The stored index, or 0 when the file is absent, unreadable or has no index. |
| AgirDental.ExtractAnswer | src/dental/agir/agir_dental_benchmark.py:135-148 | `INVALID` exactly when no A-D occurs in the reply. Otherwise the letter of highest priority among those present, whatever its position. |
| AgirDental.ExtractorsAgreeWithoutPattern | src/dental/agir/agir_dental_benchmark.py:135-148 | When no answer phrase hits, the dental extractor and the base extractor agree, `INVALID` matching `UNKNOWN`. |
| AgirDental.CorrectAnswer | src/dental/agir/agir_dental_benchmark.py:166-171 | A letter exactly when `cop` is 0..3, at 0-based position `cop`. Anything else, or a missing `cop`, is `UNKNOWN`. |
| AgirDental.IsCorrectMeaning | src/dental/agir/agir_dental_benchmark.py:173 | `IsCorrect` (`is_correct`): a prediction is correct exactly when it is a letter whose 0-based position is `cop`. |
| AgirDental.CopConventionsDisagree | src/dental/benchmark_base.py:88-92 | For any reply, the 1-based and the 0-based readings of `cop` never both call it correct. |
| AgirDental.ProcessQuestion | src/dental/agir/agir_dental_benchmark.py:150-193 | Nothing when the service gave no text. Otherwise the result at the given index, holding the row's question and the correct letter `cop` names. The prediction is extracted from the raw reply. The result is correct exactly when the prediction equals the correct letter and is not `INVALID`, that is, when its 0-based position is `cop`. The id defaults to "q_" plus the index and the subject to "dental". |
| AgirDental.ProcessingKeepsIndex | src/dental/agir/agir_dental_benchmark.py:177 | `process_question` files each result under the index it was given. |
| AgirDental.Loop | src/dental/agir/agir_dental_benchmark.py:412-439 | `processed_count` is the number of saved results and never exceeds the items seen. |
| AgirDental.LoopStep | src/dental/agir/agir_dental_benchmark.py:416-420 | A failed item changes nothing. A success appends its result and counts it. |
| AgirDental.LoopOrder | src/dental/agir/agir_dental_benchmark.py:412-420 | Saved results are at indices already reached and in strictly increasing index order. |
| AgirDental.LoopSavesSuccess | src/dental/agir/agir_dental_benchmark.py:416-420 | Every saved result is what processing its own item returned. |
| AgirDental.LoopSavesEverySuccess | src/dental/agir/agir_dental_benchmark.py:416-420 | Every answered item has its result saved. |
| AgirDental.LoopCheckpoint | src/dental/agir/agir_dental_benchmark.py:423-433 | The checkpoint follows a saved result on a fifth or final step. It records the count saved so far, `len(questions)`, and that result's index as stored. |
| AgirDental.LoopCheckpointLatest | src/dental/agir/agir_dental_benchmark.py:423-433 | No result saved on a checkpoint step comes after the checkpointed one. |
| AgirDental.RunWith | src/dental/agir/agir_dental_benchmark.py:372-439 | Stops when the probe fails or the dataset is missing. Once both are there, it finds no questions exactly when the dataset is empty. Otherwise it processes `questions[start:]`, capped by a positive limit, starting at the stored index. |
| AgirDental.RunProcessesWhenWorkRemains | src/dental/agir/agir_dental_benchmark.py:378-402 | With the service up and the dataset present, a run processes exactly when `questions[start:]` capped by a positive limit is non-empty. A negative start counts from the end. Otherwise a non-empty dataset gives "no questions to process". |
| AgirDental.WorkIsDatasetWindow | src/dental/agir/agir_dental_benchmark.py:393-397 | Item `j` of the work list is dataset row `start + j`. A positive limit bounds the list. |
| AgirDental.RunReachesWork | src/dental/agir/agir_dental_benchmark.py:378-402 | A start before the end of a non-empty dataset leads to processing. This includes a negative start, counted from the end. |
| AgirDental.CheckpointedResult | src/dental/agir/agir_dental_benchmark.py:423-433 | The checkpointed result lies at a dataset row, and the checkpoint marks its index. Every result saved up to it has a smaller or equal index. |
| AgirDental.ResumedRunStartsAt | src/dental/agir/agir_dental_benchmark.py:385-386 | A resumed run starts at the stored index and saves nothing before it. |
| AgirDental.ResumeRedoesCheckpointed | src/dental/agir/agir_dental_benchmark.py:385-433 | As written, the resumed run starts at the index of the checkpointed result, which was already saved. When that first item is answered, a second result is saved for the same question. |
| AgirDental.FirstItemSaved | src/dental/agir/agir_dental_benchmark.py:412-420 | When the first item is answered, it is the first result saved, at the start index. |
| AgirDental.ResumeAt | src/dental/agir/agir_dental_benchmark.py:385-420 | A run resuming at a dataset index starts there. When that item is answered, its result is the first one saved. |
| AgirDental.CorrectedResumeSkipsCheckpointed | src/dental/agir/agir_dental_benchmark.py:385-433 | With the next index stored, everything the resumed run saves is later than everything saved up to the checkpoint. |
| AgirDental.SaveAllAppends | src/dental/agir/agir_dental_benchmark.py:197-209 | `SaveAll`, one `save_result` per result: saves append in order to the stored list. An unreadable file is replaced and its contents lost. |
| AgirDental.CalculateMetrics | src/dental/agir/agir_dental_benchmark.py:287-328 | Nothing for a missing, unreadable or empty file. Otherwise the totals, and one bucket per predicted answer seen, holding its count and correct count. |
| AgirDental.LabelCountSnoc | src/dental/agir/agir_dental_benchmark.py:313-319 | One more result adds to exactly the bucket of its predicted answer. |
| AgirDental.BucketsPartitionResults | src/dental/agir/agir_dental_benchmark.py:313-319 | The bucket totals add up to the number of results. |
| AgirBinary.PredictLabel | src/dental/agir/agir_benchmark.py:125-136 | A `0` anywhere gives 0, then a `1` anywhere gives 1. Otherwise 1 exactly when the lower-cased reply mentions a distress word. |
| AgirBinary.DistressWordRedundant | src/dental/agir/agir_benchmark.py:132 | "distress" contains "stress", so it never changes a label. |
| AgirBinary.ProcessEntry | src/dental/agir/agir_benchmark.py:110-140 | Nothing when the service gave no text. Otherwise the entry's id and label, the predicted label, and correct exactly when the labels are equal, so never for a label other than 0 or 1. |
| AgirBinary.SaveAllRows | src/dental/agir/agir_benchmark.py:142-165 | `SaveResult` and `SaveAll`: a new file gets the header once, then one row per result. An existing file only gets rows. |
| AgirBinary.LastId | src/dental/agir/agir_benchmark.py:40-43 | The first cell of the last non-blank row, every later row being blank. There is none exactly when every row is blank. |
| AgirBinary.GetLastProcessedId | src/dental/agir/agir_benchmark.py:30-47 | No id for a missing or unreadable file, or one without a non-blank row after the first. Otherwise the first cell of the last non-blank row after the header row. |
| AgirBinary.LastIdAfterSaves | src/dental/agir/agir_benchmark.py:30-47 | After saving to a new or non-empty file, the id read back is that of the last result saved. |
| AgirBinary.EmptyFileHidesFirstResult | src/dental/agir/agir_benchmark.py:144-152 | An existing empty file gets no header, so its first row is skipped as the header and the resume id is lost. |
| AgirBinary.LastColumn | src/dental/agir/agir_benchmark.py:222-226 | The last header position with the name, as `csv.DictReader` keeps it. There is none exactly when the name is absent. |
| AgirBinary.Metrics | src/dental/agir/agir_benchmark.py:211-238 | No file gives no metrics. An unreadable file, or data rows under a header without `is_correct`, give the error. With the column, total is the number of non-blank data rows and correct the number of those whose `is_correct` cell is "1". A file without data rows counts 0 of 0. |
| AgirBinary.RowsOfCounts | src/dental/agir/agir_benchmark.py:156-162 | Saved rows are non-blank and hold "1" in `is_correct` exactly for correct results. |
| AgirBinary.MetricsAfterSaves | src/dental/agir/agir_benchmark.py:211-238 | The metrics of a file a run created count every saved result and exactly the correct ones. |
| AgirBinary.FirstIndexOf | src/dental/agir/agir_benchmark.py:297-300 | The first row with the id, or none exactly when no row has it. |
| AgirBinary.WindowFrom | src/dental/agir/agir_benchmark.py:279-300 | Resuming starts at 0 without a saved id, or right after the first row carrying it. Nothing is processed when no row carries it. |
| AgirBinary.ResumeWindow | src/dental/agir/agir_benchmark.py:279-312 | The entries after the resume point, at most `--test-entries` of them when that is positive. |
| AgirBinary.CollectEntries | src/dental/agir/agir_benchmark.py:283-312 | The skip-then-collect loop over the dataset with its early `break` yields exactly the resume window. |
| AgirBinary.BinaryLoop | src/dental/agir/agir_benchmark.py:333-358 | `processed_count` is the number of saved results. A progress record holds the entry count and a positive processed count. None is written before the tenth entry. |
| AgirBinary.SuccessPositions | src/dental/agir/agir_benchmark.py:334-341 | The positions of the answered entries, in increasing order. Every answered position is included. |
| AgirBinary.BinaryLoopSavesSuccesses | src/dental/agir/agir_benchmark.py:334-341 | One saved result per answered entry and nothing else. Saved result `k` is the result of the `k`-th answered entry, in entry order. |
| AgirBinary.LastSuccess | src/dental/agir/agir_benchmark.py:337-340 | The last entry that was answered. None exactly when no entry was. |
| AgirBinary.LastSavedIsLastSuccess | src/dental/agir/agir_benchmark.py:337-340 | Nothing is saved exactly when no entry was answered. Otherwise the last row saved is the last answered entry's result. |
| AgirBinary.WindowAfterRow | src/dental/agir/agir_benchmark.py:283-312 | With unique ids, resuming from row `p`'s id starts at row `p + 1`. |
| AgirBinary.LastSavedIdAfterRun | src/dental/agir/agir_benchmark.py:30-47 | After a run, the results file names the last answered entry's id as the last processed. |
| AgirBinary.ResumeContinuesAfterLastSaved | src/dental/agir/agir_benchmark.py:279-312 | With unique ids, the next run starts at the dataset row after the last answered entry. Saved entries are not redone, and failures after it are retried. |
| AgirBinary.RunWith | src/dental/agir/agir_benchmark.py:273-358 | Stops when the probe fails or nothing is left after resuming. Otherwise processes the resume window. |
| AgirBinary.RunThenResume | src/dental/agir/agir_benchmark.py:279-358 | A run into a new file leaves metrics that count its saved results, one per answered entry. With unique dataset ids, the next run resumes right after its last answered entry. |
| SubjectSplit.ReplaceChar | src/dataset_process/seperate_dataset_by_subject.py:34 | A replaced character no longer occurs unless the replacement holds it. Every other character is kept, and nothing new appears beyond the replacement. |
| SubjectSplit.ReplaceCharConcat | src/dataset_process/seperate_dataset_by_subject.py:34 | Replacing one character distributes over concatenation. |
| SubjectSplit.CleanSubject | src/dataset_process/seperate_dataset_by_subject.py:34 | The cleaned name holds no space, `&`, `(`, `)` or upper-case ASCII letter. |
| SubjectSplit.CleanSubjectCharwise | src/dataset_process/seperate_dataset_by_subject.py:34 | The chain of four replacements equals cleaning each character on its own: space to `_`, `&` to `and`, brackets dropped, and the rest lower-cased. |
| SubjectSplit.CleanSubjectCollides | src/dataset_process/seperate_dataset_by_subject.py:34-42 | A subject with a space and one with an underscore in its place get the same file name. |
| SubjectSplit.FileNameInjective | src/dataset_process/seperate_dataset_by_subject.py:37-40 | `FileName`: a file name determines both the cleaned subject and the split. |
| SubjectSplit.GroupIndex | src/dataset_process/seperate_dataset_by_subject.py:29 | The group for a subject, found exactly when one exists. |
| SubjectSplit.OfSubject | src/dataset_process/seperate_dataset_by_subject.py:26-29 | The samples of one subject, in dataset order. |
| SubjectSplit.GroupBySubjectPartitions | src/dataset_process/seperate_dataset_by_subject.py:26-29 | `GroupBySubject`: one group per subject present. Each group holds exactly its subject's samples in order, and the group sizes add up to the split size. |
| SubjectSplit.AllSubjects | src/dataset_process/seperate_dataset_by_subject.py:12-15 | The union of the subjects of the three splits. |
| SubjectSplit.AllSubjectsAreGrouped | src/dataset_process/seperate_dataset_by_subject.py:12-29 | A subject is listed exactly when some split has a group, and so a file, for it. |
| Slices.SliceFrom | src/dental/agir/agir_dental_benchmark.py:393 | Python's `s[start:]`, including a start past the end or negative. The result is always a suffix. |
| Slices.Cap | src/dental/agir/agir_dental_benchmark.py:396-397 | A positive limit keeps at most that many items from the front. Zero or a negative limit keeps all. |
| Text.Strip | src/dental/agir/agir_dental_benchmark.py:114 | The result is a contiguous slice of the input with only whitespace removed from the two ends, and no whitespace left at either end. |
| Text.Find | src/dental/benchmark_base.py:76 | The first position of an occurrence, or -1 exactly when there is none. |
| Text.UpperStripSameLetters | src/dental/agir/agir_dental_benchmark.py:140 | Stripping before upper-casing neither adds nor removes an upper-case letter. |
| Labels.FirstContained | src/dental/agir/agir_dental_benchmark.py:143-145 | The first of A, B, C, D that occurs anywhere. None exactly when none occurs. |
| Labels.PriorityNotPosition | src/dental/agir/agir_dental_benchmark.py:143-145 | The scan prefers A over a D that appears earlier. |
| Labels.TextInjective | src/dental/agir/agir_dental_benchmark.py:185-186 | Stored label strings are equal exactly when the labels are. |

## Left out

- Network calls, sleeps between attempts, timeouts and delays. The local service's behaviour per attempt is a parameter.
- The prompt texts (`format_question`, `create_prompt`) and the option texts: they only feed the prompt.
- Timestamps, durations, accuracy percentages, ETA lines and all printing.
- The `--metrics`, `--progress`, `--encoding` and `--clear-results` modes and flags. `--clear-results` (src/dental/agir/agir_dental_benchmark.py:343-349) deletes the results, CSV and progress files and returns. A run after it is modelled as a run on missing files. The `KeyboardInterrupt` handler's final checkpoint is also left out.
- Rows missing a key (`id`, `question`, `cop`, `opa`..`opd`, `text`, `label`): the resulting `KeyError` escapes or aborts the run. In `DentalBenchmark` the keys read after `correct_answers` is incremented (`id` and `question`, src/dental/benchmark_base.py:127-128) are read again in the `except` block (lines 142-143), so the error escapes `run_benchmark` there too and no `ERROR` record is added.
- `csv.DictReader` over the binary dataset, and its `UnicodeDecodeError` exit. The dataset is given as its parsed entries.
- The CSV copy of the dental results (src/dental/agir/agir_dental_benchmark.py:211-240): it is only appended to and never read back. It does not always match the JSON list. After an unreadable JSON file the list restarts from the new result (lines 198-204), while the CSV keeps its earlier rows.
- The OpenAI script's `write_result_to_csv`, `get_correct_option_letter` and `csv_path`. The class never defines them. `csv_path` is read at src/dental/openai_benchmark_base.py:103, 108 and 136, so `get_completed_count` as written raises `AttributeError` before its `try`. The CSV is given as a `CsvRead` value (missing, unreadable, or a row count), the correct-option text is the parameter `optionText`, and the CSV is assumed to hold a header and one row per result.
- OpenAIBenchmark.Grader, OpenAIBenchmark.Run: assume `optionText` and the CSV write never raise. In the source a raise from `get_correct_option_letter` or `write_result_to_csv` inside the `try` (src/dental/openai_benchmark_base.py:189, 199) sends the question to the `except` block, which appends an `ERROR` record (lines 201-214) and calls both again (lines 207, 217). When the reply was already counted at line 183, that `ERROR` record is counted correct.
- The OpenAI `query_model` wrappers for specific models, the `run_benchmarks` driver, and the analysis scripts.
- The HuggingFace `load_dataset` call and the JSON serialisation of samples in the splitter. Samples are opaque records with a subject.
- The sorted summary the splitter prints, and the overwriting of a file when two subjects clean to the same name. That collision is stated by `SubjectSplit.CleanSubjectCollides`.
- BenchmarkBase.GradeReply, AgirDental.ProcessQuestion: a key present with a JSON `null` value is treated as absent. Python's `.get(key, default)` returns `None` for such a key, so the source stores `None` where the model stores the default: the topic and subject (src/dental/benchmark_base.py:133-134, 148-149), the dental subject (src/dental/agir/agir_dental_benchmark.py:190) and the dental id (line 152). MedMCQA rows often carry `"topic_name": null`. A null `cop` behaves as in the model, since `None in [0, 1, 2, 3]` is false and gives `UNKNOWN`.
- AgirBinary.SaveResult: a write that fails on a readable results file is not modelled. The source swallows it (src/dental/agir/agir_benchmark.py:164-165) and the row is lost, while the model always appends.
- Progress records of the binary run (`save_progress`) are modelled only as counts. The binary run never reads them back.
- Text.Upper, Text.Lower: map ASCII letters only, where Python's `str.upper()` and `str.lower()` apply the full Unicode mappings. Some non-ASCII characters map to ASCII letters: U+0131 (dotless i) and U+017F (long s) upper-case to `I` and `S`, U+1E9A upper-cases to `A` followed by U+02BE, U+212A (Kelvin sign) lower-cases to `k`, and U+0130 lower-cases to `i` followed by a combining dot. The distress-keyword check (`AgirBinary.PredictLabel`) is unaffected: no keyword contains `k`, and in Python the combining dot after `i` keeps a keyword spelled with U+0130 from matching, as in the model.
- BenchmarkBase.ExtractAnswerChoice: differs from the source on replies holding such characters. For "The answer ıs B", Python matches `ANSWER IS ` and returns B, while the model misses the phrase and falls back to A. For the reply "ẚ", Python returns A and the model returns `UNKNOWN`.
- AgirDental.ExtractAnswer: the same difference, since it upper-cases the stripped reply the same way.
- AgirBinary.ResumeContinuesAfterLastSaved: assumes the dataset ids are unique. With repeated ids the script resumes after the first row carrying the id, which the lemma does not describe.
- AgirBinary.RunThenResume: assumes the dataset ids are unique, for the same reason. With repeated ids the next run starts after the first row carrying the last saved id (src/dental/agir/agir_benchmark.py:283-312), which need not be right after the last answered entry.
- AgirDental.LoadDataset: a dataset file that is not valid UTF-8 is not modelled. The `UnicodeDecodeError` is raised while iterating the file (src/dental/agir/agir_dental_benchmark.py:45-46), outside the per-line `try`, and escapes `main`. The file is given as its decoded lines.
- AgirDental.GetLastProcessedIndex: a progress file whose `last_processed_index` is JSON `null` (or not a number) is read as one without an index, giving 0. In the source `.get` returns `None` (line 64), and `start_index > 0` (line 389) then raises a `TypeError` that escapes `main`, since only `KeyboardInterrupt` is caught.

## Findings

| source | as written | input that shows it | evidently intended | confidence | as-written member | corrected member |
|---|---|---|---|---|---|---|
| src/dental/agir/agir_dental_benchmark.py:433 | The checkpoint stores `current_index`, the item just processed. The next run starts at the stored index (lines 385-386). | A run that answers index 4 (the fifth item) writes 4. The next run's first item is index 4 again, and a second result is saved for it. | Store the next index to process, `current_index + 1`, so that a resumed run starts after the checkpointed item. | not executed | AgirDental.ResumeRedoesCheckpointed | AgirDental.CorrectedResumeSkipsCheckpointed |

=== FILE: agir_binary.dfy ===
/**
 The resumable distress-classification run (src/dental/agir/agir_benchmark.py):
 the 0/1 label read from a reply, the CSV results file with its one header row,
 resuming after the last saved id, and the optional cap on entries.
 */
module AgirBinary {
  import opened Wrappers
  import opened Text
  import opened LocalApi
  import Slices
  import Tally

  /** The words that make an unclear reply count as distress. */
  const DistressWords: seq<string> := ["stress", "distress", "anxiety", "trauma", "yes"]

  predicate MentionsAny(s: string, words: seq<string>) {
    exists w :: w in words && Contains(s, w)
  }

  /**
   The predicted label: a `0` anywhere wins, then a `1` anywhere; otherwise `1`
   exactly when the lower-cased reply mentions one of the distress words.
   */
  function PredictLabel(response: string): (predicted: char)
    ensures predicted == '0' || predicted == '1'
    ensures '0' in response ==> predicted == '0'
    ensures '0' !in response && '1' in response ==> predicted == '1'
    ensures '0' !in response && '1' !in response ==> (predicted == '1' <==> MentionsAny(Lower(response), DistressWords))
  {
    if '0' in response then '0'
    else if '1' in response then '1'
    else if MentionsAny(Lower(response), DistressWords) then '1'
    else '0'
  }

  /** "distress" contains "stress", so listing it changes no label. */
  lemma DistressWordRedundant(s: string)
    ensures MentionsAny(s, DistressWords) <==> MentionsAny(s, ["stress", "anxiety", "trauma", "yes"])
  {
    var fewer := ["stress", "anxiety", "trauma", "yes"];
    if MentionsAny(s, DistressWords) {
      var w :| w in DistressWords && Contains(s, w);
      if w == "distress" {
        var i :| 0 <= i <= |s| && OccursAt(s, "distress", i);
        assert s[i + 2..i + 8] == "distress"[2..];
        assert OccursAt(s, "stress", i + 2);
        assert "stress" in fewer;
      } else {
        assert w in fewer;
      }
    }
    if MentionsAny(s, fewer) {
      var w :| w in fewer && Contains(s, w);
      assert w in DistressWords;
    }
  }

  /** One dataset row: its `id`, `text` and `label` columns. */
  datatype Entry = Entry(id: string, text: string, actual: string)

  /** The tuple `process_entry` returns. */
  datatype BinaryResult = BinaryResult(id: string, actualLabel: string, predictedLabel: string, isCorrect: bool)

  /** `process_entry`: `None` when the service gave no text; otherwise the graded entry. */
  function ProcessEntry(e: Entry, outcome: nat -> Attempt): (r: Option<BinaryResult>)
    ensures r.None? <==> CallLocalApi(outcome, DefaultRetries).response.None?
    ensures r.Some? ==> r.value.id == e.id && r.value.actualLabel == e.actual
    ensures r.Some? ==> r.value.predictedLabel == [PredictLabel(CallLocalApi(outcome, DefaultRetries).response.value)]
    ensures r.Some? ==> (r.value.isCorrect <==> r.value.predictedLabel == e.actual)
    ensures r.Some? && e.actual != "0" && e.actual != "1" ==> !r.value.isCorrect
  {
    match CallLocalApi(outcome, DefaultRetries).response
    case None => None
    case Some(text) =>
      var predicted := [PredictLabel(text)];
      Some(BinaryResult(e.id, e.actual, predicted, predicted == e.actual))
  }

  /** A CSV row as `csv.reader` returns it; a blank line is the empty row. */
  type Row = seq<string>

  const Header: Row := ["id", "actual_label", "predicted_label", "is_correct"]

  /** The results file: absent, present but unreadable, or its rows. */
  datatype CsvFile = NoCsv | UnreadableCsv | Csv(rows: seq<Row>)

  function RowOf(r: BinaryResult): (row: Row)
    ensures |row| == 4 && row[0] == r.id
  {
    [r.id, r.actualLabel, r.predictedLabel, if r.isCorrect then "1" else "0"]
  }

  function RowsOf(rs: seq<BinaryResult>): (rows: seq<Row>)
    ensures |rows| == |rs|
    ensures forall k :: 0 <= k < |rs| ==> rows[k] == RowOf(rs[k])
  {
    if rs == [] then [] else RowsOf(rs[..|rs| - 1]) + [RowOf(rs[|rs| - 1])]
  }

  /**
   `save_result`: append one row, writing the header first when the file did not
   exist. An unreadable file is taken to stay unreadable, its write error swallowed;
   on a readable file the append always succeeds here (a failed write is not modelled).
   */
  function SaveResult(file: CsvFile, r: BinaryResult): CsvFile {
    match file
    case NoCsv => Csv([Header, RowOf(r)])
    case UnreadableCsv => UnreadableCsv
    case Csv(rows) => Csv(rows + [RowOf(r)])
  }

  /** Saving several results one at a time. */
  function SaveAll(file: CsvFile, rs: seq<BinaryResult>): CsvFile {
    if rs == [] then file else SaveResult(SaveAll(file, rs[..|rs| - 1]), rs[|rs| - 1])
  }

  /** The header is written once, when the first result creates the file; later results only append rows. */
  lemma {:induction false} SaveAllRows(file: CsvFile, rs: seq<BinaryResult>)
    requires !file.UnreadableCsv?
    requires rs != []
    ensures file.NoCsv? ==> SaveAll(file, rs) == Csv([Header] + RowsOf(rs))
    ensures file.Csv? ==> SaveAll(file, rs) == Csv(file.rows + RowsOf(rs))
  {
    var init := rs[..|rs| - 1];
    var last := rs[|rs| - 1];
    if init == [] {
      assert RowsOf(rs) == [RowOf(last)];
    } else {
      SaveAllRows(file, init);
      assert RowsOf(rs) == RowsOf(init) + [RowOf(last)];
    }
  }

  /** Row `k` is the last non-blank row: every row after it is blank. */
  predicate LastNonBlankAt(rows: seq<Row>, k: int) {
    && 0 <= k < |rows|
    && rows[k] != []
    && forall j :: k < j < |rows| ==> rows[j] == []
  }

  /** The first column of the last non-blank row, if any. */
  function LastId(rows: seq<Row>): (r: Option<string>)
    ensures r.None? <==> forall k :: 0 <= k < |rows| ==> rows[k] == []
    ensures r.Some? ==> exists k :: LastNonBlankAt(rows, k) && rows[k][0] == r.value
  {
    if rows == [] then None
    else if rows[|rows| - 1] != [] then
      assert LastNonBlankAt(rows, |rows| - 1);
      Some(rows[|rows| - 1][0])
    else
      var init := rows[..|rows| - 1];
      var r := LastId(init);
      assert r.Some? ==> exists k :: LastNonBlankAt(rows, k) && rows[k][0] == r.value by {
        if r.Some? {
          var k :| LastNonBlankAt(init, k) && init[k][0] == r.value;
          assert LastNonBlankAt(rows, k);
        }
      }
      r
  }

  /**
   `get_last_processed_id`: no id for a missing or unreadable file; otherwise the
   first row is skipped as the header and the id is the first cell of the last
   non-blank row after it.
   */
  function GetLastProcessedId(file: CsvFile): (r: Option<string>)
    ensures r.Some? <==> file.Csv? && exists k :: 1 <= k < |file.rows| && file.rows[k] != []
    ensures r.Some? ==> exists k :: 1 <= k && LastNonBlankAt(file.rows, k) && file.rows[k][0] == r.value
  {
    match file
    case Csv(rows) =>
      if rows == [] then None
      else
        var r := LastId(rows[1..]);
        assert forall k :: 0 <= k < |rows[1..]| ==> rows[1..][k] == rows[k + 1];
        assert r.Some? ==> exists k :: 1 <= k && LastNonBlankAt(rows, k) && rows[k][0] == r.value by {
          if r.Some? {
            var k :| LastNonBlankAt(rows[1..], k) && rows[1..][k][0] == r.value;
            assert LastNonBlankAt(rows, k + 1);
          }
        }
        r
    case _ => None
  }

  /** After saving, the id read back for resuming is the id of the last result saved. */
  lemma LastIdAfterSaves(file: CsvFile, rs: seq<BinaryResult>)
    requires file.NoCsv? || (file.Csv? && file.rows != [])
    requires rs != []
    ensures GetLastProcessedId(SaveAll(file, rs)) == Some(rs[|rs| - 1].id)
  {
    SaveAllRows(file, rs);
    var rows := SaveAll(file, rs).rows;
    assert rows[|rows| - 1] == RowOf(rs[|rs| - 1]);
    assert rows[1..][|rows[1..]| - 1] == rows[|rows| - 1];
  }

  /**
   An existing but empty results file gets no header, so its first saved row is
   then taken for the header and is invisible when resuming.
   */
  lemma EmptyFileHidesFirstResult(r: BinaryResult)
    ensures GetLastProcessedId(SaveResult(Csv([]), r)) == None
  {
  }

  /** The results of a run of `calculate_metrics` over the results file. */
  datatype BinaryMetrics =
    | NoResultsFile
    | MetricsFailed
    | Counted(total: nat, correct: nat)

  /** The last column named `name`: with repeated names, `csv.DictReader` keeps the last one. */
  function LastColumn(header: Row, name: string): (k: Option<nat>)
    ensures k.None? <==> name !in header
    ensures k.Some? ==> k.value < |header| && header[k.value] == name
    ensures k.Some? ==> forall i :: k.value < i < |header| ==> header[i] != name
  {
    if header == [] then None
    else if header[|header| - 1] == name then Some(|header| - 1)
    else LastColumn(header[..|header| - 1], name)
  }

  /** The data rows `csv.DictReader` yields: blank rows are skipped. */
  function NonBlankCount(rows: seq<Row>): (n: nat)
    ensures n <= |rows|
    ensures n == 0 <==> forall k :: 0 <= k < |rows| ==> rows[k] == []
  {
    if rows == [] then 0
    else NonBlankCount(rows[..|rows| - 1]) + (if rows[|rows| - 1] != [] then 1 else 0)
  }

  /**
   The non-blank rows whose `is_correct` cell, in column `col`, is the text "1"; a row
   too short to reach the column reads as missing.
   */
  function CorrectRowCount(rows: seq<Row>, col: nat): (n: nat)
    ensures n <= NonBlankCount(rows)
  {
    if rows == [] then 0
    else
      var last := rows[|rows| - 1];
      CorrectRowCount(rows[..|rows| - 1], col) + (if last != [] && col < |last| && last[col] == "1" then 1 else 0)
  }

  /**
   `calculate_metrics`: the first row is the header; every later non-blank row is
   counted, and counted correct when its `is_correct` cell is "1". A header without
   that column fails as soon as there is a row to read it from.
   */
  function Metrics(file: CsvFile): (m: BinaryMetrics)
    ensures m.NoResultsFile? <==> file.NoCsv?
    ensures m.Counted? ==> m.correct <= m.total
    ensures file.Csv? && file.rows != [] && m.Counted? ==> m.total == NonBlankCount(file.rows[1..])
    ensures m.MetricsFailed? <==>
      file.UnreadableCsv? || (file.Csv? && file.rows != [] && "is_correct" !in file.rows[0] && NonBlankCount(file.rows[1..]) > 0)
    ensures file.Csv? && file.rows != [] && LastColumn(file.rows[0], "is_correct").Some? ==>
      m == Counted(NonBlankCount(file.rows[1..]), CorrectRowCount(file.rows[1..], LastColumn(file.rows[0], "is_correct").value))
    ensures file.Csv? && m.Counted? && (file.rows == [] || "is_correct" !in file.rows[0]) ==> m == Counted(0, 0)
  {
    match file
    case NoCsv => NoResultsFile
    case UnreadableCsv => MetricsFailed
    case Csv(rows) =>
      if rows == [] then Counted(0, 0)
      else
        var total := NonBlankCount(rows[1..]);
        match LastColumn(rows[0], "is_correct")
        case None => if total > 0 then MetricsFailed else Counted(0, 0)
        case Some(col) => Counted(total, CorrectRowCount(rows[1..], col))
  }

  predicate Correct(r: BinaryResult) {
    r.isCorrect
  }

  /** The rows written for some results: all non-blank, and "1" in column 3 exactly for the correct ones. */
  lemma {:induction false} RowsOfCounts(rs: seq<BinaryResult>)
    ensures NonBlankCount(RowsOf(rs)) == |rs|
    ensures CorrectRowCount(RowsOf(rs), 3) == Tally.Count(rs, Correct)
  {
    if rs != [] {
      var init := rs[..|rs| - 1];
      RowsOfCounts(init);
      assert RowsOf(rs)[..|rs| - 1] == RowsOf(init);
      assert init + [rs[|rs| - 1]] == rs;
      Tally.CountSnoc(init, rs[|rs| - 1], Correct);
    }
  }

  /** Metrics over a results file a run created count every saved result, and the correct ones. */
  lemma MetricsAfterSaves(rs: seq<BinaryResult>)
    requires rs != []
    ensures Metrics(SaveAll(NoCsv, rs)) == Counted(|rs|, Tally.Count(rs, Correct))
  {
    SaveAllRows(NoCsv, rs);
    var rows := SaveAll(NoCsv, rs).rows;
    assert rows[0] == Header && rows[1..] == RowsOf(rs);
    assert LastColumn(Header, "is_correct") == Some(3);
    RowsOfCounts(rs);
  }

  /** The position of the first row with the given id. */
  function FirstIndexOf(dataset: seq<Entry>, id: string): (r: Option<nat>)
    ensures r.None? <==> forall j :: 0 <= j < |dataset| ==> dataset[j].id != id
    ensures r.Some? ==> r.value < |dataset| && dataset[r.value].id == id
    ensures r.Some? ==> forall j :: 0 <= j < r.value ==> dataset[j].id != id
  {
    if dataset == [] then None
    else if dataset[0].id == id then Some(0)
    else
      match FirstIndexOf(dataset[1..], id)
      case None => None
      case Some(k) => Some(k + 1)
  }

  /** Where the entries to run begin: after the first row with the last saved id, or at 0 without one. */
  function WindowFrom(dataset: seq<Entry>, lastId: Option<string>): (from: Option<nat>)
    ensures lastId.None? ==> from == Some(0)
    ensures lastId.Some? ==> (from.None? <==> forall j :: 0 <= j < |dataset| ==> dataset[j].id != lastId.value)
    ensures lastId.Some? && from.Some? ==>
      0 < from.value <= |dataset| && dataset[from.value - 1].id == lastId.value
      && forall j :: 0 <= j < from.value - 1 ==> dataset[j].id != lastId.value
  {
    match lastId
    case None => Some(0)
    case Some(id) =>
      match FirstIndexOf(dataset, id)
      case None => None
      case Some(k) => Some(k + 1)
  }

  /**
   The entries a run works on: everything after the first row carrying the last
   saved id (all rows when there is none, no rows when that id is not in the
   dataset), capped by a positive `--test-entries`.
   */
  function ResumeWindow(dataset: seq<Entry>, lastId: Option<string>, testEntries: int): (w: seq<Entry>)
    ensures testEntries > 0 ==> |w| <= testEntries
    ensures WindowFrom(dataset, lastId).None? ==> w == []
    ensures WindowFrom(dataset, lastId).Some? ==> w == Slices.Cap(dataset[WindowFrom(dataset, lastId).value..], testEntries)
  {
    match WindowFrom(dataset, lastId)
    case None => []
    case Some(from) => Slices.Cap(dataset[from..], testEntries)
  }

  /** Where the window starts when the last saved id was found at `from - 1` (or there was none and `from` is 0). */
  lemma WindowStart(dataset: seq<Entry>, lastId: Option<string>, testEntries: int, from: nat)
    requires from <= |dataset|
    requires lastId.None? ==> from == 0
    requires lastId.Some? ==> 0 < from && dataset[from - 1].id == lastId.value
    requires lastId.Some? ==> forall j :: 0 <= j < from - 1 ==> dataset[j].id != lastId.value
    ensures ResumeWindow(dataset, lastId, testEntries) == Slices.Cap(dataset[from..], testEntries)
  {
    if lastId.Some? {
      var k := FirstIndexOf(dataset, lastId.value);
      assert k == Some(from - 1);
      assert WindowFrom(dataset, lastId) == Some(from);
    }
  }

  /** The dataset-reading loop of `main`, with its `found_last_id` flag and early `break`. */
  method CollectEntries(dataset: seq<Entry>, lastId: Option<string>, testEntries: int) returns (entries: seq<Entry>)
    ensures entries == ResumeWindow(dataset, lastId, testEntries)
  {
    var found := lastId.None?;
    var from := 0;
    entries := [];
    var i := 0;
    while i < |dataset|
      invariant 0 <= from <= i <= |dataset|
      invariant !found ==> lastId.Some? && forall j :: 0 <= j < i ==> dataset[j].id != lastId.value
      invariant !found ==> entries == []
      invariant found && lastId.None? ==> from == 0
      invariant found && lastId.Some? ==> 0 < from && dataset[from - 1].id == lastId.value
      invariant found && lastId.Some? ==> forall j :: 0 <= j < from - 1 ==> dataset[j].id != lastId.value
      invariant found ==> entries == dataset[from..i]
      invariant found && testEntries > 0 ==> |entries| < testEntries
    {
      var e := dataset[i];
      if !found {
        if e.id == lastId.value {
          found := true;
          from := i + 1;
        }
        i := i + 1;
        continue;
      }
      entries := entries + [e];
      i := i + 1;
      if testEntries > 0 && |entries| >= testEntries {
        CollectedWindow(dataset, lastId, testEntries, from, i, entries);
        return;
      }
    }
    if found {
      CollectedWindow(dataset, lastId, testEntries, from, i, entries);
    } else {
      assert lastId.Some? && WindowFrom(dataset, lastId).None?;
    }
  }

  /** The collection loop stops with the window: at the cap, or at the end of the dataset. */
  lemma CollectedWindow(dataset: seq<Entry>, lastId: Option<string>, testEntries: int, from: nat, i: nat, entries: seq<Entry>)
    requires from <= i <= |dataset|
    requires lastId.None? ==> from == 0
    requires lastId.Some? ==> 0 < from && dataset[from - 1].id == lastId.value
    requires lastId.Some? ==> forall j :: 0 <= j < from - 1 ==> dataset[j].id != lastId.value
    requires entries == dataset[from..i]
    requires i == |dataset| || (testEntries > 0 && |entries| == testEntries)
    requires testEntries > 0 ==> |entries| <= testEntries
    ensures entries == ResumeWindow(dataset, lastId, testEntries)
  {
    WindowStart(dataset, lastId, testEntries, from);
    if i < |dataset| {
      assert dataset[from..][..|entries|] == dataset[from..i];
    } else {
      assert dataset[from..] == dataset[from..i];
    }
  }

  /** How one entry is processed; the loop is stated for any such function. */
  type EntryProcessor = (Entry, nat -> Attempt) -> Option<BinaryResult>

  /** `process_entry` as a value. */
  function Processing(): EntryProcessor {
    (e, outcome) => ProcessEntry(e, outcome)
  }

  /** A processor that reports each result under its entry's id. */
  ghost predicate KeepsId(process: EntryProcessor) {
    forall e, outcome :: process(e, outcome).Some? ==> process(e, outcome).value.id == e.id
  }

  lemma ProcessingKeepsId()
    ensures KeepsId(Processing())
  {
  }

  /** A progress record: `processed_count` and `total_count`; the timing fields are not modelled. */
  datatype Progress = Progress(processedCount: nat, totalCount: nat)

  /** The loop after some entries: the results saved so far, `processed_count`, and the last progress record. */
  datatype BinaryState = BinaryState(saved: seq<BinaryResult>, processedCount: nat, progress: Option<Progress>)

  /**
   The first `n` iterations of the processing loop: a success is saved and counted,
   and progress is recorded after a success at every tenth entry.
   */
  function BinaryLoop(entries: seq<Entry>, process: EntryProcessor, service: nat -> nat -> Attempt, n: nat): (st: BinaryState)
    requires n <= |entries|
    ensures st.processedCount == |st.saved| <= n
    ensures st.progress.Some? ==> st.progress.value.totalCount == |entries|
    ensures st.progress.Some? ==> 0 < st.progress.value.processedCount <= st.processedCount
    ensures n < 10 ==> st.progress.None?
  {
    if n == 0 then BinaryState([], 0, None)
    else
      var prev := BinaryLoop(entries, process, service, n - 1);
      var i := n - 1;
      match process(entries[i], service(i))
      case None => prev
      case Some(res) =>
        var count := prev.processedCount + 1;
        BinaryState(prev.saved + [res], count,
          if (i + 1) % 10 == 0 then Some(Progress(count, |entries|)) else prev.progress)
  }

  /** The position of the last entry among the first `n` whose processing succeeded. */
  function LastSuccess(entries: seq<Entry>, process: EntryProcessor, service: nat -> nat -> Attempt, n: nat): (j: Option<nat>)
    requires n <= |entries|
    ensures j.Some? ==> j.value < n && process(entries[j.value], service(j.value)).Some?
    ensures j.Some? ==> forall k :: j.value < k < n ==> process(entries[k], service(k)).None?
    ensures j.None? ==> forall k :: 0 <= k < n ==> process(entries[k], service(k)).None?
  {
    if n == 0 then None
    else if process(entries[n - 1], service(n - 1)).Some? then Some(n - 1)
    else LastSuccess(entries, process, service, n - 1)
  }

  /** The positions among the first `n` entries whose processing succeeded, in increasing order. */
  function SuccessPositions(entries: seq<Entry>, process: EntryProcessor, service: nat -> nat -> Attempt, n: nat): (ps: seq<nat>)
    requires n <= |entries|
    ensures forall k :: 0 <= k < |ps| ==> ps[k] < n && process(entries[ps[k]], service(ps[k])).Some?
    ensures forall k, l :: 0 <= k < l < |ps| ==> ps[k] < ps[l]
    ensures forall j :: 0 <= j < n && process(entries[j], service(j)).Some? ==> j in ps
  {
    if n == 0 then []
    else
      var prev := SuccessPositions(entries, process, service, n - 1);
      if process(entries[n - 1], service(n - 1)).Some? then prev + [n - 1] else prev
  }

  /**
   The loop saves one result per answered entry and nothing else: saved result `k`
   is the result of the `k`-th answered entry, in entry order.
   */
  lemma {:induction false} BinaryLoopSavesSuccesses(entries: seq<Entry>, process: EntryProcessor, service: nat -> nat -> Attempt, n: nat, st: BinaryState)
    requires n <= |entries|
    requires st == BinaryLoop(entries, process, service, n)
    ensures |st.saved| == |SuccessPositions(entries, process, service, n)|
    ensures forall k :: 0 <= k < |st.saved| ==>
      Some(st.saved[k]) == process(entries[SuccessPositions(entries, process, service, n)[k]], service(SuccessPositions(entries, process, service, n)[k]))
  {
    if n > 0 {
      var prev := BinaryLoop(entries, process, service, n - 1);
      BinaryLoopSavesSuccesses(entries, process, service, n - 1, prev);
      var ps := SuccessPositions(entries, process, service, n - 1);
      var o := process(entries[n - 1], service(n - 1));
      if o.Some? {
        assert st.saved == prev.saved + [o.value];
        assert SuccessPositions(entries, process, service, n) == ps + [n - 1];
      } else {
        assert st == prev;
        assert SuccessPositions(entries, process, service, n) == ps;
      }
    }
  }

  /** The last result saved is the one for the last entry that succeeded; with none, nothing is saved. */
  lemma {:induction false} LastSavedIsLastSuccess(entries: seq<Entry>, process: EntryProcessor, service: nat -> nat -> Attempt, n: nat, st: BinaryState)
    requires n <= |entries|
    requires st == BinaryLoop(entries, process, service, n)
    ensures st.saved == [] <==> LastSuccess(entries, process, service, n).None?
    ensures st.saved != [] ==>
      Some(st.saved[|st.saved| - 1])
        == process(entries[LastSuccess(entries, process, service, n).value], service(LastSuccess(entries, process, service, n).value))
  {
    if n > 0 {
      var prev := BinaryLoop(entries, process, service, n - 1);
      if process(entries[n - 1], service(n - 1)).None? {
        assert st == prev;
        LastSavedIsLastSuccess(entries, process, service, n - 1, prev);
      }
    }
  }

  /** Entry `j` of a window is dataset row `from + j`. */
  lemma WindowEntry(dataset: seq<Entry>, lastId: Option<string>, testEntries: int, j: nat)
    requires WindowFrom(dataset, lastId).Some?
    requires j < |ResumeWindow(dataset, lastId, testEntries)|
    ensures WindowFrom(dataset, lastId).value + j < |dataset|
    ensures ResumeWindow(dataset, lastId, testEntries)[j] == dataset[WindowFrom(dataset, lastId).value + j]
  {
  }

  /** No two rows share an id: each row is the first one carrying its id. */
  ghost predicate UniqueIds(dataset: seq<Entry>) {
    forall a {:trigger FirstIndexOf(dataset, dataset[a].id)} ::
      0 <= a < |dataset| ==> FirstIndexOf(dataset, dataset[a].id) == Some(a)
  }

  /** With unique ids, resuming from the id of row `p` starts at row `p + 1`. */
  lemma WindowAfterRow(dataset: seq<Entry>, p: nat, testEntries: int)
    requires UniqueIds(dataset)
    requires p < |dataset|
    ensures ResumeWindow(dataset, Some(dataset[p].id), testEntries) == Slices.Cap(dataset[p + 1..], testEntries)
  {
    assert FirstIndexOf(dataset, dataset[p].id) == Some(p);
  }

  /** After a run whose last success is entry `j`, the results file names entry `j`'s id as the last processed. */
  lemma {:induction false} LastSavedIdAfterRun(
      file: CsvFile, w: seq<Entry>, process: EntryProcessor, service: nat -> nat -> Attempt, st: BinaryState, j: nat)
    requires KeepsId(process)
    requires file.NoCsv? || (file.Csv? && file.rows != [])
    requires st == BinaryLoop(w, process, service, |w|)
    requires LastSuccess(w, process, service, |w|) == Some(j)
    ensures j < |w|
    ensures st.saved != [] && st.saved[|st.saved| - 1].id == w[j].id
    ensures GetLastProcessedId(SaveAll(file, st.saved)) == Some(w[j].id)
  {
    LastSavedIsLastSuccess(w, process, service, |w|, st);
    LastIdAfterSaves(file, st.saved);
  }

  /**
   Resuming continues right after the last entry saved: when entry `j` of the window
   is the last one that succeeded, the next run's window starts, with unique ids, at
   the dataset row after it, so no saved entry is redone and entries that failed
   after it are tried again. Stated for any processor that keeps ids,
   `Processing()` among them.
   */
  lemma {:induction false} ResumeContinuesAfterLastSaved(
      dataset: seq<Entry>, file: CsvFile, testEntries: int, process: EntryProcessor, service: nat -> nat -> Attempt, testEntries2: int,
      w: seq<Entry>, st: BinaryState, j: nat)
    requires KeepsId(process)
    requires UniqueIds(dataset)
    requires file.NoCsv? || (file.Csv? && file.rows != [])
    requires WindowFrom(dataset, GetLastProcessedId(file)).Some?
    requires w == ResumeWindow(dataset, GetLastProcessedId(file), testEntries)
    requires st == BinaryLoop(w, process, service, |w|)
    requires LastSuccess(w, process, service, |w|) == Some(j)
    ensures WindowFrom(dataset, GetLastProcessedId(file)).value + j < |dataset|
    ensures ResumeWindow(dataset, GetLastProcessedId(SaveAll(file, st.saved)), testEntries2)
      == Slices.Cap(dataset[WindowFrom(dataset, GetLastProcessedId(file)).value + j + 1..], testEntries2)
  {
    var from := WindowFrom(dataset, GetLastProcessedId(file)).value;
    var next := GetLastProcessedId(SaveAll(file, st.saved));
    assert from + j < |dataset| && next == Some(dataset[from + j].id) by {
      LastSavedIdAfterRun(file, w, process, service, st, j);
      WindowEntry(dataset, GetLastProcessedId(file), testEntries, j);
    }
    assert ResumeWindow(dataset, next, testEntries2) == Slices.Cap(dataset[from + j + 1..], testEntries2) by {
      WindowAfterRow(dataset, from + j, testEntries2);
    }
  }

  /** How a run of `main` ends. */
  datatype BinaryRun =
    | ApiUnavailable   // the connection probe failed
    | NoEntries        // nothing left to process after resuming
    | Processed(entries: seq<Entry>, loop: BinaryState)

  /**
   `main` without the `--metrics` and `--progress` modes: probe the service, resume
   after the last saved id, process the window, saving each success. Stated for any
   processor; `Run` uses `process_entry`.
   */
  function RunWith(process: EntryProcessor, probe: nat -> Attempt, dataset: seq<Entry>, file: CsvFile, testEntries: int, service: nat -> nat -> Attempt): (r: BinaryRun)
    ensures r.ApiUnavailable? <==> !TestApiConnection(probe)
    ensures r.NoEntries? <==> TestApiConnection(probe) && ResumeWindow(dataset, GetLastProcessedId(file), testEntries) == []
    ensures r.Processed? ==> r.entries == ResumeWindow(dataset, GetLastProcessedId(file), testEntries)
    ensures r.Processed? ==> r.loop == BinaryLoop(r.entries, process, service, |r.entries|)
  {
    if !TestApiConnection(probe) then ApiUnavailable
    else
      var entries := ResumeWindow(dataset, GetLastProcessedId(file), testEntries);
      if entries == [] then NoEntries
      else Processed(entries, BinaryLoop(entries, process, service, |entries|))
  }

  function Run(probe: nat -> Attempt, dataset: seq<Entry>, file: CsvFile, testEntries: int, service: nat -> nat -> Attempt): BinaryRun {
    RunWith(Processing(), probe, dataset, file, testEntries, service)
  }

  /** The results file after a run: every success appended in order. */
  function ResultsAfter(file: CsvFile, r: BinaryRun): CsvFile {
    if r.Processed? then SaveAll(file, r.loop.saved) else file
  }

  /**
   A run that saved something leaves a results file whose metrics count exactly the
   saved results, one per answered entry, and the next run resumes right after the
   last entry that succeeded.
   */
  lemma RunThenResume(process: EntryProcessor, probe: nat -> Attempt, dataset: seq<Entry>, testEntries: int, service: nat -> nat -> Attempt, testEntries2: int, r: BinaryRun, j: nat)
    requires KeepsId(process)
    requires UniqueIds(dataset)
    requires r == RunWith(process, probe, dataset, NoCsv, testEntries, service)
    requires r.Processed? && LastSuccess(r.entries, process, service, |r.entries|) == Some(j)
    ensures r.loop.saved != []
    ensures Metrics(ResultsAfter(NoCsv, r)) == Counted(|r.loop.saved|, Tally.Count(r.loop.saved, Correct))
    ensures |r.loop.saved| == |SuccessPositions(r.entries, process, service, |r.entries|)|
    ensures j < |dataset|
    ensures ResumeWindow(dataset, GetLastProcessedId(ResultsAfter(NoCsv, r)), testEntries2) == Slices.Cap(dataset[j + 1..], testEntries2)
  {
    assert r.loop.saved != [] by {
      LastSavedIdAfterRun(NoCsv, r.entries, process, service, r.loop, j);
    }
    assert Metrics(ResultsAfter(NoCsv, r)) == Counted(|r.loop.saved|, Tally.Count(r.loop.saved, Correct)) by {
      MetricsAfterSaves(r.loop.saved);
    }
    assert |r.loop.saved| == |SuccessPositions(r.entries, process, service, |r.entries|)| by {
      BinaryLoopSavesSuccesses(r.entries, process, service, |r.entries|, r.loop);
    }
    assert j < |dataset| && ResumeWindow(dataset, GetLastProcessedId(ResultsAfter(NoCsv, r)), testEntries2) == Slices.Cap(dataset[j + 1..], testEntries2) by {
      assert WindowFrom(dataset, GetLastProcessedId(NoCsv)) == Some(0);
      ResumeContinuesAfterLastSaved(dataset, NoCsv, testEntries, process, service, testEntries2, r.entries, r.loop, j);
    }
  }
}

=== FILE: agir_dental.dfy ===
/**
 The resumable dental-question run against the local completion service
 (src/dental/agir/agir_dental_benchmark.py): loading the JSON-lines dataset,
 the single-letter extractor, the 0-based `cop` convention, the run that
 resumes from a stored index, and the per-answer metrics.
 */
module AgirDental {
  import opened Wrappers
  import opened Text
  import opened Labels
  import opened LocalApi
  import Slices
  import Tally
  import BenchmarkBase

  /** One dataset row. A key the row lacks is `None`; the four option texts only feed the prompt. */
  datatype DentalQuestion = DentalQuestion(
    id: Option<string>,
    question: string,
    cop: Option<int>,
    subjectName: Option<string>)

  /** One line of the dataset file as `json.loads` sees it. */
  datatype Line = Parsed(row: DentalQuestion) | Malformed

  /** The dataset file: absent, or its lines. */
  datatype DatasetFile = NoDataset | DatasetLines(lines: seq<Line>)

  /** The parsed rows, in file order; malformed lines are skipped with a warning. */
  function ParseLines(lines: seq<Line>): (qs: seq<DentalQuestion>)
    ensures |qs| + Tally.Count(lines, IsMalformed) == |lines|
    ensures forall q :: q in qs <==> Parsed(q) in lines
  {
    if lines == [] then []
    else
      var init := lines[..|lines| - 1];
      var last := lines[|lines| - 1];
      assert lines == init + [last];
      Tally.CountSnoc(init, last, IsMalformed);
      var qs := ParseLines(init);
      assert forall q :: Parsed(q) in lines <==> Parsed(q) in init || last == Parsed(q);
      if last.Parsed? then qs + [last.row] else qs
  }

  function IsMalformed(l: Line): bool {
    l.Malformed?
  }

  /** Parsing is line by line: a file's rows are the rows of its parts, in order. */
  lemma {:induction false} ParseLinesConcat(a: seq<Line>, b: seq<Line>)
    ensures ParseLines(a + b) == ParseLines(a) + ParseLines(b)
    decreases |b|
  {
    if b == [] {
      assert a + b == a;
    } else {
      var init := b[..|b| - 1];
      var last := b[|b| - 1];
      assert b == init + [last];
      assert a + b == (a + init) + [last];
      ParseLinesConcat(a, init);
    }
  }

  /** `load_dataset`: `None` stands for the `FileNotFoundError` it raises. */
  function LoadDataset(file: DatasetFile): (r: Option<seq<DentalQuestion>>)
    ensures r.None? <==> file.NoDataset?
    ensures r.Some? ==> |r.value| == |file.lines| - Tally.Count(file.lines, IsMalformed)
    ensures r.Some? ==> forall q :: q in r.value <==> Parsed(q) in file.lines
  {
    match file
    case NoDataset => None
    case DatasetLines(lines) => Some(ParseLines(lines))
  }

  /** The progress file as `get_last_processed_index` finds it. */
  datatype ProgressFile =
    | NoProgressFile
    | UnreadableProgress
    | ProgressJson(lastProcessedIndex: Option<int>)

  /** `get_last_processed_index`: the stored index, or 0 when there is none to read. */
  function GetLastProcessedIndex(p: ProgressFile): (r: int)
    ensures p.ProgressJson? && p.lastProcessedIndex.Some? ==> r == p.lastProcessedIndex.value
    ensures !(p.ProgressJson? && p.lastProcessedIndex.Some?) ==> r == 0
  {
    match p
    case ProgressJson(Some(i)) => i
    case _ => 0
  }

  /**
   `extract_answer`: an empty reply is `INVALID`; otherwise the first of A, B, C, D
   (in that order, wherever it stands) present in the stripped, upper-cased reply.
   */
  function ExtractAnswer(response: string): (r: Label)
    ensures r.Chosen? || r == Invalid
    ensures r == Invalid <==> forall l :: LetterChar(l) !in Upper(response)
    ensures r.Chosen? ==> LetterChar(r.letter) in Upper(response)
    ensures r.Chosen? ==> forall l :: Ordinal(l) < Ordinal(r.letter) ==> LetterChar(l) !in Upper(response)
  {
    if response == [] then Invalid
    else
      var up := Upper(Strip(response));
      assert forall l :: LetterChar(l) in up <==> LetterChar(l) in Upper(response) by {
        forall l: Letter {
          UpperStripSameLetters(response, LetterChar(l));
        }
      }
      match FirstContained(up)
      case Some(l) => Chosen(l)
      case None => Invalid
  }

  /**
   The two extractors agree whenever the reply names no answer through a pattern:
   the dental extractor never looks for patterns, so a reply such as
   "The answer is B." can grade differently.
   */
  lemma ExtractorsAgreeWithoutPattern(response: string)
    requires BenchmarkBase.NoPatternHit(Upper(response))
    ensures ExtractAnswer(response) == Invalid <==> BenchmarkBase.ExtractAnswerChoice(response) == Unknown
    ensures ExtractAnswer(response).Chosen? ==> ExtractAnswer(response) == BenchmarkBase.ExtractAnswerChoice(response)
  {
    var up := Upper(response);
    var a := ExtractAnswer(response);
    var b := BenchmarkBase.ExtractAnswerChoice(response);
    if a.Chosen? {
      HighestPriorityUnique(up, a.letter, b.letter);
    }
  }

  /** The correct letter from `cop`: 0..3 name A..D; any other value, or none, is `UNKNOWN`. */
  function CorrectAnswer(cop: Option<int>): (r: Label)
    ensures r.Chosen? || r == Unknown
    ensures r.Chosen? <==> cop.Some? && 0 <= cop.value <= 3
    ensures r.Chosen? ==> Ordinal(r.letter) == cop.value
  {
    var n := cop.GetOr(-1);
    if 0 <= n <= 3 then
      var c := ('A' as int + n) as char;
      assert LetterChar([A, B, C, D][n]) == c;
      match LetterOf(c)
      case Some(l) => Chosen(l)
      case None => Unknown
    else Unknown
  }

  /** `is_correct`: the labels match and the prediction is not `INVALID`. */
  function IsCorrect(predicted: Label, correct: Label): bool {
    predicted == correct && predicted != Invalid
  }

  /** With a prediction from the extractor, `is_correct` holds exactly when its letter's 0-based position is `cop`. */
  lemma IsCorrectMeaning(predicted: Label, cop: Option<int>)
    requires predicted.Chosen? || predicted == Invalid
    ensures IsCorrect(predicted, CorrectAnswer(cop)) <==> predicted.Chosen? && cop == Some(Ordinal(predicted.letter))
  {
    var c := CorrectAnswer(cop);
    if predicted.Chosen? && cop == Some(Ordinal(predicted.letter)) {
      assert c.Chosen? && Ordinal(c.letter) == Ordinal(predicted.letter);
      assert c.letter == predicted.letter;
    }
  }

  /**
   The same row graded by both scripts is never right in both: the base grader
   reads `cop` as 1..4, the dental one as 0..3. Both letters occur in the reply,
   and the dental one is the occurring letter of highest priority, so it cannot
   stand one position after the base one.
   */
  lemma CopConventionsDisagree(response: string, cop: int)
    ensures !(BenchmarkBase.EvaluateAnswer(BenchmarkBase.ExtractAnswerChoice(response), cop)
              && IsCorrect(ExtractAnswer(response), CorrectAnswer(Some(cop))))
  {
    IsCorrectMeaning(ExtractAnswer(response), Some(cop));
  }

  /** One saved result. The option texts and the timestamp are not modelled. */
  datatype DentalResult = DentalResult(
    questionId: string,
    questionIndex: int,
    question: string,
    correctAnswer: Label,
    predicted: Label,
    isCorrect: bool,
    rawResponse: string,
    subject: string)

  /**
   `process_question`: `None` when the service gave no text; otherwise the graded
   result, with `q_<index>` standing in for a missing id and `dental` for a missing subject.
   */
  function ProcessQuestion(q: DentalQuestion, index: int, outcome: nat -> Attempt): (r: Option<DentalResult>)
    ensures r.None? <==> CallLocalApi(outcome, DefaultRetries).response.None?
    ensures r.Some? ==> r.value.questionIndex == index
    ensures r.Some? ==> r.value.rawResponse == CallLocalApi(outcome, DefaultRetries).response.value
    ensures r.Some? ==> r.value.predicted == ExtractAnswer(r.value.rawResponse)
    ensures r.Some? ==>
      (r.value.isCorrect <==> r.value.predicted.Chosen? && q.cop == Some(Ordinal(r.value.predicted.letter)))
    ensures r.Some? ==> r.value.questionId == q.id.GetOr("q_" + IntToString(index))
    ensures r.Some? ==> r.value.subject == q.subjectName.GetOr("dental")
    ensures r.Some? ==> r.value.question == q.question && r.value.correctAnswer == CorrectAnswer(q.cop)
    ensures r.Some? ==> (r.value.isCorrect <==> r.value.predicted == r.value.correctAnswer && r.value.predicted != Invalid)
  {
    match CallLocalApi(outcome, DefaultRetries).response
    case None => None
    case Some(text) =>
      var predicted := ExtractAnswer(text);
      var correct := CorrectAnswer(q.cop);
      IsCorrectMeaning(predicted, q.cop);
      Some(DentalResult(
        q.id.GetOr("q_" + IntToString(index)), index, q.question,
        correct, predicted, IsCorrect(predicted, correct), text,
        q.subjectName.GetOr("dental")))
  }

  /** A progress record as `save_progress` writes it; the timing fields are not modelled. */
  datatype Checkpoint = Checkpoint(processedCount: nat, totalCount: nat, lastProcessedIndex: int)

  /** The loop after some items: the results saved so far, `processed_count`, and the last checkpoint written. */
  datatype LoopState = LoopState(saved: seq<DentalResult>, processedCount: nat, checkpoint: Option<Checkpoint>)

  /**
   What a checkpoint stores for the item at `current`: the script stores `current`
   itself (`Inclusive`), which the next run reads back as its start; `Exclusive`
   stores the next index to process.
   */
  datatype Marking = Inclusive | Exclusive

  function Mark(m: Marking, current: int): int {
    if m == Inclusive then current else current + 1
  }

  /** A checkpoint is written after a success at every fifth item and at the last one. */
  predicate IsCheckpointStep(i: int, len: nat) {
    (i + 1) % 5 == 0 || i == len - 1
  }

  /** How one question is processed; the loop is stated for any such function. */
  type Processor = (DentalQuestion, int, nat -> Attempt) -> Option<DentalResult>

  /** `process_question` as a value. */
  function Processing(): Processor {
    (q, index, outcome) => ProcessQuestion(q, index, outcome)
  }

  /** A processor that files each result under the index it was given. */
  ghost predicate KeepsIndex(process: Processor) {
    forall q, index, outcome :: process(q, index, outcome).Some? ==> process(q, index, outcome).value.questionIndex == index
  }

  lemma ProcessingKeepsIndex()
    ensures KeepsIndex(Processing())
  {
  }

  /** The outcome of item `j` of the work list, which stands at dataset index `start + j`. */
  function Attempted(work: seq<DentalQuestion>, start: int, process: Processor, service: nat -> nat -> Attempt, j: nat): Option<DentalResult>
    requires j < |work|
  {
    process(work[j], start + j, service(j))
  }
  /** The first `n` iterations of the processing loop; `total` is `len(questions)`. */
  function Loop(work: seq<DentalQuestion>, start: int, total: nat, process: Processor, service: nat -> nat -> Attempt, m: Marking, n: nat): (st: LoopState)
    requires n <= |work|
    ensures st.processedCount == |st.saved| <= n
  {
    if n == 0 then LoopState([], 0, None)
    else
      var prev := Loop(work, start, total, process, service, m, n - 1);
      var i := n - 1;
      match Attempted(work, start, process, service, i)
      case None => prev
      case Some(res) =>
        var count := prev.processedCount + 1;
        LoopState(prev.saved + [res], count,
          if IsCheckpointStep(i, |work|) then Some(Checkpoint(count, total, Mark(m, start + i)))
          else prev.checkpoint)
  }

  /** One iteration: a failure leaves the state as it was; a success appends its result. */
  lemma LoopStep(work: seq<DentalQuestion>, start: int, total: nat, process: Processor, service: nat -> nat -> Attempt, m: Marking, n: nat)
    requires 0 < n <= |work|
    ensures Attempted(work, start, process, service, n - 1).None? ==>
      Loop(work, start, total, process, service, m, n) == Loop(work, start, total, process, service, m, n - 1)
    ensures Attempted(work, start, process, service, n - 1).Some? ==>
      Loop(work, start, total, process, service, m, n).saved
        == Loop(work, start, total, process, service, m, n - 1).saved + [Attempted(work, start, process, service, n - 1).value]
  {
  }

  /** Results are saved in work order, each at the dataset index of an item already reached. */
  lemma {:induction false} LoopOrder(work: seq<DentalQuestion>, start: int, total: nat, process: Processor, service: nat -> nat -> Attempt, m: Marking, n: nat, saved: seq<DentalResult>)
    requires KeepsIndex(process)
    requires n <= |work|
    requires saved == Loop(work, start, total, process, service, m, n).saved
    ensures forall k :: 0 <= k < |saved| ==> start <= saved[k].questionIndex < start + n
    ensures forall a, b :: 0 <= a < b < |saved| ==> saved[a].questionIndex < saved[b].questionIndex
  {
    if n > 0 {
      var prev := Loop(work, start, total, process, service, m, n - 1).saved;
      LoopOrder(work, start, total, process, service, m, n - 1, prev);
      LoopStep(work, start, total, process, service, m, n);
      var o := Attempted(work, start, process, service, n - 1);
      if o.Some? {
        assert saved == prev + [o.value];
        assert o.value.questionIndex == start + n - 1;
      }
    }
  }

  /** Each saved result is what processing its own item returned: only successes are saved. */
  lemma {:induction false} LoopSavesSuccess(work: seq<DentalQuestion>, start: int, total: nat, process: Processor, service: nat -> nat -> Attempt, m: Marking, n: nat, saved: seq<DentalResult>, k: nat)
    requires KeepsIndex(process)
    requires n <= |work|
    requires saved == Loop(work, start, total, process, service, m, n).saved
    requires k < |saved|
    ensures start <= saved[k].questionIndex < start + n
    ensures Attempted(work, start, process, service, saved[k].questionIndex - start) == Some(saved[k])
  {
    var prev := Loop(work, start, total, process, service, m, n - 1).saved;
    LoopStep(work, start, total, process, service, m, n);
    var o := Attempted(work, start, process, service, n - 1);
    if k < |prev| {
      LoopSavesSuccess(work, start, total, process, service, m, n - 1, prev, k);
      assert saved[k] == prev[k];
    } else {
      assert saved[k] == o.value;
    }
  }

  /** Every item whose question was answered has its result saved. */
  lemma {:induction false} LoopSavesEverySuccess(work: seq<DentalQuestion>, start: int, total: nat, process: Processor, service: nat -> nat -> Attempt, m: Marking, n: nat, saved: seq<DentalResult>, j: nat)
    requires KeepsIndex(process)
    requires j < n <= |work|
    requires saved == Loop(work, start, total, process, service, m, n).saved
    requires Attempted(work, start, process, service, j).Some?
    ensures exists k :: 0 <= k < |saved| && saved[k].questionIndex == start + j
  {
    var prev := Loop(work, start, total, process, service, m, n - 1).saved;
    LoopStep(work, start, total, process, service, m, n);
    if j == n - 1 {
      var o := Attempted(work, start, process, service, j);
      assert saved == prev + [o.value];
      assert saved[|saved| - 1].questionIndex == start + j;
    } else {
      LoopSavesEverySuccess(work, start, total, process, service, m, n - 1, prev, j);
      var k :| 0 <= k < |prev| && prev[k].questionIndex == start + j;
      assert saved[k] == prev[k];
    }
  }

  /**
   The checkpoint was written for a saved result on a checkpoint step: it records
   how many results were saved up to that one, `len(questions)`, and the marked
   index of that result.
   */
  lemma {:induction false} LoopCheckpoint(work: seq<DentalQuestion>, start: int, total: nat, process: Processor, service: nat -> nat -> Attempt, m: Marking, n: nat, st: LoopState)
    requires KeepsIndex(process)
    requires n <= |work|
    requires st == Loop(work, start, total, process, service, m, n)
    requires st.checkpoint.Some?
    ensures 0 < st.checkpoint.value.processedCount <= |st.saved|
    ensures st.checkpoint.value.totalCount == total
    ensures st.checkpoint.value.lastProcessedIndex == Mark(m, st.saved[st.checkpoint.value.processedCount - 1].questionIndex)
    ensures IsCheckpointStep(st.saved[st.checkpoint.value.processedCount - 1].questionIndex - start, |work|)
  {
    assert n > 0;
    var prev := Loop(work, start, total, process, service, m, n - 1);
    LoopStep(work, start, total, process, service, m, n);
    var o := Attempted(work, start, process, service, n - 1);
    if o.None? {
      assert st == prev;
      LoopCheckpoint(work, start, total, process, service, m, n - 1, prev);
    } else if IsCheckpointStep(n - 1, |work|) {
      assert st.saved == prev.saved + [o.value] && o.value.questionIndex == start + n - 1;
      assert st.checkpoint == Some(Checkpoint(|st.saved|, total, Mark(m, start + n - 1)));
    } else {
      assert st.saved == prev.saved + [o.value] && st.checkpoint == prev.checkpoint;
      LoopCheckpoint(work, start, total, process, service, m, n - 1, prev);
      var k := prev.checkpoint.value.processedCount - 1;
      assert st.saved[k] == prev.saved[k];
    }
  }

  /** No saved result after the checkpointed one fell on a checkpoint step: the checkpoint is the latest. */
  lemma {:induction false} LoopCheckpointLatest(work: seq<DentalQuestion>, start: int, total: nat, process: Processor, service: nat -> nat -> Attempt, m: Marking, n: nat, st: LoopState)
    requires KeepsIndex(process)
    requires n <= |work|
    requires st == Loop(work, start, total, process, service, m, n)
    ensures forall k :: 0 <= k < |st.saved| && IsCheckpointStep(st.saved[k].questionIndex - start, |work|) ==>
      st.checkpoint.Some? && k < st.checkpoint.value.processedCount
  {
    if n > 0 {
      var prev := Loop(work, start, total, process, service, m, n - 1);
      LoopStep(work, start, total, process, service, m, n);
      LoopCheckpointLatest(work, start, total, process, service, m, n - 1, prev);
      var o := Attempted(work, start, process, service, n - 1);
      if o.Some? {
        var res := o.value;
        assert st.saved == prev.saved + [res];
        assert res.questionIndex == start + n - 1;
        if IsCheckpointStep(n - 1, |work|) {
          assert st.checkpoint == Some(Checkpoint(|st.saved|, total, Mark(m, start + n - 1)));
        } else {
          assert st.checkpoint == prev.checkpoint;
          forall k | 0 <= k < |st.saved| && IsCheckpointStep(st.saved[k].questionIndex - start, |work|)
            ensures st.checkpoint.Some? && k < st.checkpoint.value.processedCount
          {
            assert k < |prev.saved|;
            assert st.saved[k] == prev.saved[k];
          }
        }
      }
    }
  }

  /** How one invocation of `main` (without the reporting flags) ends. */
  datatype DentalRun =
    | ApiUnavailable   // the connection probe failed
    | DatasetMissing   // `load_dataset` raised `FileNotFoundError`
    | NoQuestions
    | NothingToProcess
    | Processed(questions: seq<DentalQuestion>, start: int, work: seq<DentalQuestion>, loop: LoopState)

  /**
   `main`: probe the service, load the dataset, start at the stored index, apply
   a positive `--limit`, then process the work list. `service(i)` is what the
   service does for item `i` of the work list.
   */
  function RunWith(m: Marking, process: Processor, probe: nat -> Attempt, dataset: DatasetFile, progress: ProgressFile, limit: int, service: nat -> nat -> Attempt): (r: DentalRun)
    ensures r.ApiUnavailable? <==> !TestApiConnection(probe)
    ensures r.DatasetMissing? <==> TestApiConnection(probe) && dataset.NoDataset?
    ensures r.Processed? ==> r.questions == LoadDataset(dataset).value && r.start == GetLastProcessedIndex(progress)
    ensures r.Processed? ==> r.work != [] && r.work == Slices.Cap(Slices.SliceFrom(r.questions, r.start), limit)
    ensures r.Processed? ==> r.loop == Loop(r.work, r.start, |r.questions|, process, service, m, |r.work|)
    ensures r.NoQuestions? <==> TestApiConnection(probe) && dataset.DatasetLines? && LoadDataset(dataset).value == []
  {
    if !TestApiConnection(probe) then ApiUnavailable
    else
      match LoadDataset(dataset)
      case None => DatasetMissing
      case Some(questions) =>
        if questions == [] then NoQuestions
        else
          var start := GetLastProcessedIndex(progress);
          var work := Slices.Cap(Slices.SliceFrom(questions, start), limit);
          if work == [] then NothingToProcess
          else Processed(questions, start, work, Loop(work, start, |questions|, process, service, m, |work|))
  }

  /**
   Once the service answers and the dataset file exists, a run processes exactly
   when `questions[start:]`, capped by a positive limit, is non-empty; a negative
   stored index counts from the end, as Python slicing does.
   */
  lemma RunProcessesWhenWorkRemains(m: Marking, process: Processor, probe: nat -> Attempt, dataset: DatasetFile, progress: ProgressFile, limit: int, service: nat -> nat -> Attempt)
    requires TestApiConnection(probe) && dataset.DatasetLines?
    ensures RunWith(m, process, probe, dataset, progress, limit, service).Processed?
      <==> Slices.Cap(Slices.SliceFrom(LoadDataset(dataset).value, GetLastProcessedIndex(progress)), limit) != []
    ensures RunWith(m, process, probe, dataset, progress, limit, service).NothingToProcess? <==>
      (LoadDataset(dataset).value != []
       && Slices.Cap(Slices.SliceFrom(LoadDataset(dataset).value, GetLastProcessedIndex(progress)), limit) == [])
  {
  }

  /** The script as written: the checkpoint stores the index of the item just processed. */
  function Run(probe: nat -> Attempt, dataset: DatasetFile, progress: ProgressFile, limit: int, service: nat -> nat -> Attempt): DentalRun {
    RunWith(Inclusive, Processing(), probe, dataset, progress, limit, service)
  }

  /** The corrected script: the checkpoint stores the index of the next item to process. */
  function RunCorrected(probe: nat -> Attempt, dataset: DatasetFile, progress: ProgressFile, limit: int, service: nat -> nat -> Attempt): DentalRun {
    RunWith(Exclusive, Processing(), probe, dataset, progress, limit, service)
  }

  /** The progress file a run leaves behind: its last checkpoint, if it wrote one. */
  function ProgressAfter(progress: ProgressFile, r: DentalRun): ProgressFile {
    if r.Processed? && r.loop.checkpoint.Some? then ProgressJson(Some(r.loop.checkpoint.value.lastProcessedIndex))
    else progress
  }

  /**
   From a non-negative start, item `j` of the work list is dataset row `start + j`,
   and a positive limit bounds the work list.
   */
  lemma WorkIsDatasetWindow(r: DentalRun, limit: int, j: nat)
    requires r.Processed? && r.start >= 0
    requires r.work == Slices.Cap(Slices.SliceFrom(r.questions, r.start), limit)
    requires j < |r.work|
    ensures r.start + j < |r.questions| && r.work[j] == r.questions[r.start + j]
    ensures limit > 0 ==> |r.work| <= limit
  {
    Slices.SliceFromCapIndex(r.questions, r.start, limit, j);
  }

  /**
   A run whose start lies before the end of a non-empty dataset gets to process
   something; a negative start counts from the end, as Python slicing does.
   */
  lemma RunReachesWork(m: Marking, process: Processor, probe: nat -> Attempt, dataset: DatasetFile, progress: ProgressFile, limit: int, service: nat -> nat -> Attempt)
    requires TestApiConnection(probe) && dataset.DatasetLines?
    requires LoadDataset(dataset).value != []
    requires GetLastProcessedIndex(progress) < |LoadDataset(dataset).value|
    ensures RunWith(m, process, probe, dataset, progress, limit, service).Processed?
  {
    var questions := LoadDataset(dataset).value;
    var start := GetLastProcessedIndex(progress);
    assert Slices.Cap(Slices.SliceFrom(questions, start), limit) != [] by {
      assert |Slices.SliceFrom(questions, start)| > 0;
    }
    RunProcessesWhenWorkRemains(m, process, probe, dataset, progress, limit, service);
  }

  /** The question index of the result a run's checkpoint was written for. */
  function CheckpointedIndex(r: DentalRun): int
    requires r.Processed? && r.loop.checkpoint.Some?
    requires 0 < r.loop.checkpoint.value.processedCount <= |r.loop.saved|
  {
    r.loop.saved[r.loop.checkpoint.value.processedCount - 1].questionIndex
  }

  /** The checkpointed result of a loop: saved before the checkpoint, at an item of the work list, under the index the checkpoint marks. */
  lemma LoopCheckpointedResult(work: seq<DentalQuestion>, start: int, total: nat, process: Processor, service: nat -> nat -> Attempt, m: Marking, st: LoopState)
    requires KeepsIndex(process)
    requires st == Loop(work, start, total, process, service, m, |work|)
    requires st.checkpoint.Some?
    ensures 0 < st.checkpoint.value.processedCount <= |st.saved|
    ensures start <= st.saved[st.checkpoint.value.processedCount - 1].questionIndex < start + |work|
    ensures st.checkpoint.value.lastProcessedIndex == Mark(m, st.saved[st.checkpoint.value.processedCount - 1].questionIndex)
    ensures forall a :: 0 <= a < st.checkpoint.value.processedCount ==>
      st.saved[a].questionIndex <= st.saved[st.checkpoint.value.processedCount - 1].questionIndex
  {
    var count := st.checkpoint.value.processedCount;
    assert 0 < count <= |st.saved| && st.checkpoint.value.lastProcessedIndex == Mark(m, st.saved[count - 1].questionIndex) by {
      LoopCheckpoint(work, start, total, process, service, m, |work|, st);
    }
    assert start <= st.saved[count - 1].questionIndex < start + |work| by {
      LoopSavesSuccess(work, start, total, process, service, m, |work|, st.saved, count - 1);
    }
    assert forall a :: 0 <= a < count ==> st.saved[a].questionIndex <= st.saved[count - 1].questionIndex by {
      LoopOrder(work, start, total, process, service, m, |work|, st.saved);
    }
  }

  /** The checkpointed result of a run: saved before the checkpoint, at a dataset row, under the index the checkpoint marks. */
  lemma CheckpointedResult(m: Marking, process: Processor, probe: nat -> Attempt, dataset: DatasetFile, progress: ProgressFile, limit: int, service: nat -> nat -> Attempt, r: DentalRun)
    requires KeepsIndex(process)
    requires GetLastProcessedIndex(progress) >= 0
    requires r == RunWith(m, process, probe, dataset, progress, limit, service)
    requires r.Processed? && r.loop.checkpoint.Some?
    ensures 0 < r.loop.checkpoint.value.processedCount <= |r.loop.saved|
    ensures 0 <= CheckpointedIndex(r) < |r.questions|
    ensures r.loop.checkpoint.value.lastProcessedIndex == Mark(m, CheckpointedIndex(r))
    ensures forall a :: 0 <= a < r.loop.checkpoint.value.processedCount ==> r.loop.saved[a].questionIndex <= CheckpointedIndex(r)
  {
    LoopCheckpointedResult(r.work, r.start, |r.questions|, process, service, m, r.loop);
    var idx := CheckpointedIndex(r);
    assert idx < |r.questions| by {
      Slices.SliceFromCapIndex(r.questions, r.start, limit, idx - r.start);
    }
  }

  /** Resuming from `progress2`, a run that processes anything starts at the stored index and saves only later-or-equal indices. */
  lemma ResumedRunStartsAt(m: Marking, process: Processor, probe: nat -> Attempt, dataset: DatasetFile, progress2: ProgressFile, limit2: int, service2: nat -> nat -> Attempt, r2: DentalRun, idx: int)
    requires KeepsIndex(process)
    requires progress2 == ProgressJson(Some(idx))
    requires r2 == RunWith(m, process, probe, dataset, progress2, limit2, service2)
    requires r2.Processed?
    ensures r2.start == idx
    ensures forall b :: 0 <= b < |r2.loop.saved| ==> idx <= r2.loop.saved[b].questionIndex
  {
    LoopOrder(r2.work, r2.start, |r2.questions|, process, service2, m, |r2.work|, r2.loop.saved);
  }

  /**
   As written, resuming redoes the checkpointed question: the next run starts at
   the index of a result the previous run already saved before its checkpoint,
   and when that first item is answered it saves a second result for it. `Run` is the
   instance with `Processing()`, which keeps indices (`ProcessingKeepsIndex`).
   */
  lemma ResumeRedoesCheckpointed(
      process: Processor, probe: nat -> Attempt, dataset: DatasetFile, progress: ProgressFile, limit: int, service: nat -> nat -> Attempt,
      limit2: int, service2: nat -> nat -> Attempt, r1: DentalRun, r2: DentalRun)
    requires KeepsIndex(process)
    requires GetLastProcessedIndex(progress) >= 0
    requires r1 == RunWith(Inclusive, process, probe, dataset, progress, limit, service)
    requires r1.Processed? && r1.loop.checkpoint.Some?
    requires r2 == RunWith(Inclusive, process, probe, dataset, ProgressAfter(progress, r1), limit2, service2)
    ensures r2.Processed? && 0 < r1.loop.checkpoint.value.processedCount <= |r1.loop.saved|
    ensures r2.start == r1.loop.saved[r1.loop.checkpoint.value.processedCount - 1].questionIndex
    ensures Attempted(r2.work, r2.start, process, service2, 0).Some? ==>
      r2.loop.saved != [] && r2.loop.saved[0].questionIndex == r1.loop.saved[r1.loop.checkpoint.value.processedCount - 1].questionIndex
  {
    var count := r1.loop.checkpoint.value.processedCount;
    assert 0 < count <= |r1.loop.saved| && 0 <= CheckpointedIndex(r1) < |r1.questions|
      && r1.loop.checkpoint.value.lastProcessedIndex == CheckpointedIndex(r1) by {
      CheckpointedResult(Inclusive, process, probe, dataset, progress, limit, service, r1);
    }
    var idx := CheckpointedIndex(r1);
    assert TestApiConnection(probe) && dataset.DatasetLines? && |r1.questions| == |LoadDataset(dataset).value|;
    assert GetLastProcessedIndex(ProgressAfter(progress, r1)) == idx;
    ResumeAt(process, probe, dataset, ProgressAfter(progress, r1), limit2, service2, r2, idx);
  }

  /** A run that resumes at a dataset index starts there and, when that item is answered, saves it first. */
  lemma ResumeAt(
      process: Processor, probe: nat -> Attempt, dataset: DatasetFile, progress: ProgressFile, limit: int, service: nat -> nat -> Attempt,
      r: DentalRun, idx: int)
    requires KeepsIndex(process)
    requires TestApiConnection(probe) && dataset.DatasetLines?
    requires 0 <= idx < |LoadDataset(dataset).value| && GetLastProcessedIndex(progress) == idx
    requires r == RunWith(Inclusive, process, probe, dataset, progress, limit, service)
    ensures r.Processed? && r.start == idx
    ensures Attempted(r.work, r.start, process, service, 0).Some? ==> r.loop.saved != [] && r.loop.saved[0].questionIndex == idx
  {
    RunReachesWork(Inclusive, process, probe, dataset, progress, limit, service);
    if Attempted(r.work, r.start, process, service, 0).Some? {
      FirstItemSaved(r.work, idx, |r.questions|, process, service, Inclusive, |r.work|, r.loop.saved);
    }
  }

  /** When the first item of a work list is answered, it is the first result saved. */
  lemma FirstItemSaved(work: seq<DentalQuestion>, start: int, total: nat, process: Processor, service: nat -> nat -> Attempt, m: Marking, n: nat, saved: seq<DentalResult>)
    requires KeepsIndex(process)
    requires 0 < n <= |work|
    requires saved == Loop(work, start, total, process, service, m, n).saved
    requires Attempted(work, start, process, service, 0).Some?
    ensures saved != [] && saved[0].questionIndex == start
  {
    LoopSavesEverySuccess(work, start, total, process, service, m, n, saved, 0);
    LoopOrder(work, start, total, process, service, m, n, saved);
  }

  /**
   Corrected, resuming never redoes checkpointed work: every result the next run
   saves is for a later question than every result saved up to the checkpoint.
   `RunCorrected` is the instance with `Processing()`.
   */
  lemma CorrectedResumeSkipsCheckpointed(
      process: Processor, probe: nat -> Attempt, dataset: DatasetFile, progress: ProgressFile, limit: int, service: nat -> nat -> Attempt,
      limit2: int, service2: nat -> nat -> Attempt, r1: DentalRun, r2: DentalRun)
    requires KeepsIndex(process)
    requires GetLastProcessedIndex(progress) >= 0
    requires r1 == RunWith(Exclusive, process, probe, dataset, progress, limit, service)
    requires r1.Processed? && r1.loop.checkpoint.Some?
    requires r2 == RunWith(Exclusive, process, probe, dataset, ProgressAfter(progress, r1), limit2, service2)
    ensures r1.loop.checkpoint.value.processedCount <= |r1.loop.saved|
    ensures r2.Processed? ==>
      forall a, b :: 0 <= a < r1.loop.checkpoint.value.processedCount && 0 <= b < |r2.loop.saved| ==>
        r1.loop.saved[a].questionIndex < r2.loop.saved[b].questionIndex
  {
    CheckpointedResult(Exclusive, process, probe, dataset, progress, limit, service, r1);
    var idx := CheckpointedIndex(r1);
    var progress2 := ProgressAfter(progress, r1);
    assert r1.loop.checkpoint.value.lastProcessedIndex == idx + 1;
    assert progress2 == ProgressJson(Some(idx + 1));
    if r2.Processed? {
      ResumedRunStartsAt(Exclusive, process, probe, dataset, progress2, limit2, service2, r2, idx + 1);
      forall a, b | 0 <= a < r1.loop.checkpoint.value.processedCount && 0 <= b < |r2.loop.saved|
        ensures r1.loop.saved[a].questionIndex < r2.loop.saved[b].questionIndex
      {
        assert r1.loop.saved[a].questionIndex <= idx;
        assert idx + 1 <= r2.loop.saved[b].questionIndex;
      }
    }
  }

  /** The JSON results file that `save_result` rewrites after every success. */
  datatype ResultsFile = NoResultsFile | CorruptResults | ResultsJson(results: seq<DentalResult>)

  /** The results `save_result` starts from: the file's list, or nothing when it is absent or unreadable. */
  function Prior(file: ResultsFile): seq<DentalResult> {
    if file.ResultsJson? then file.results else []
  }

  /** Saving the results of a run one at a time. */
  function SaveAll(file: ResultsFile, rs: seq<DentalResult>): ResultsFile {
    if rs == [] then file
    else
      var before := SaveAll(file, rs[..|rs| - 1]);
      ResultsJson(Prior(before) + [rs[|rs| - 1]])
  }

  /**
   Saves append in order to what the file held; an unreadable file is replaced,
   so the results it held are lost at the first save.
   */
  lemma {:induction false} SaveAllAppends(file: ResultsFile, rs: seq<DentalResult>)
    requires rs != []
    ensures SaveAll(file, rs) == ResultsJson(Prior(file) + rs)
  {
    var init := rs[..|rs| - 1];
    if init != [] {
      SaveAllAppends(file, init);
      assert Prior(file) + rs == (Prior(file) + init) + [rs[|rs| - 1]];
    } else {
      assert rs == [rs[0]];
    }
  }

  /** A bucket of `answer_counts`. */
  datatype Bucket = Bucket(total: nat, correct: nat)

  /** What `calculate_metrics` reports; the accuracy percentages are left out. */
  datatype Metrics = Metrics(totalCount: nat, correctCount: nat, byAnswer: map<Label, Bucket>)

  function IsCorrectResult(r: DentalResult): bool {
    r.isCorrect
  }

  /** How many results predicted `l`. */
  function LabelCount(rs: seq<DentalResult>, l: Label): (n: nat)
    ensures n <= |rs|
  {
    if rs == [] then 0
    else LabelCount(rs[..|rs| - 1], l) + (if rs[|rs| - 1].predicted == l then 1 else 0)
  }

  /** How many results predicted `l` and were correct. */
  function LabelCorrect(rs: seq<DentalResult>, l: Label): (n: nat)
    ensures n <= LabelCount(rs, l)
  {
    if rs == [] then 0
    else LabelCorrect(rs[..|rs| - 1], l) + (if rs[|rs| - 1].predicted == l && rs[|rs| - 1].isCorrect then 1 else 0)
  }

  /** `answer_counts` holds a bucket for exactly the answers predicted in `rs`, with their counts. */
  ghost predicate BucketsOf(counts: map<Label, Bucket>, rs: seq<DentalResult>) {
    && (forall l :: l in counts <==> LabelCount(rs, l) > 0)
    && (forall l :: l in counts ==> counts[l] == Bucket(LabelCount(rs, l), LabelCorrect(rs, l)))
  }

  /** One step of the counting loop: the bucket of the predicted answer, created if needed, counts one more result. */
  function AddToBucket(counts: map<Label, Bucket>, r: DentalResult): map<Label, Bucket> {
    var b := if r.predicted in counts then counts[r.predicted] else Bucket(0, 0);
    counts[r.predicted := Bucket(b.total + 1, if r.isCorrect then b.correct + 1 else b.correct)]
  }

  lemma AddToBucketKeeps(counts: map<Label, Bucket>, rs: seq<DentalResult>, r: DentalResult)
    requires BucketsOf(counts, rs)
    ensures BucketsOf(AddToBucket(counts, r), rs + [r])
  {
    forall l {
      LabelCountSnoc(rs, r, l);
    }
  }

  /**
   `calculate_metrics`: nothing for a missing, unreadable or empty file; otherwise
   the totals and, per predicted answer seen, how many results gave it and how
   many of those were correct.
   */
  method CalculateMetrics(file: ResultsFile) returns (m: Option<Metrics>)
    ensures m.None? <==> !file.ResultsJson? || file.results == []
    ensures m.Some? ==> m.value.totalCount == |file.results|
    ensures m.Some? ==> m.value.correctCount == Tally.Count(file.results, IsCorrectResult)
    ensures m.Some? ==> forall l :: l in m.value.byAnswer <==> LabelCount(file.results, l) > 0
    ensures m.Some? ==> forall l :: l in m.value.byAnswer ==>
      m.value.byAnswer[l] == Bucket(LabelCount(file.results, l), LabelCorrect(file.results, l))
  {
    if !file.ResultsJson? || file.results == [] {
      return None;
    }
    var rs := file.results;
    var correct := 0;
    var counts: map<Label, Bucket> := map[];
    for i := 0 to |rs|
      invariant correct == Tally.Count(rs[..i], IsCorrectResult)
      invariant BucketsOf(counts, rs[..i])
    {
      var r := rs[i];
      assert rs[..i + 1] == rs[..i] + [r];
      Tally.CountSnoc(rs[..i], r, IsCorrectResult);
      AddToBucketKeeps(counts, rs[..i], r);
      if r.isCorrect {
        correct := correct + 1;
      }
      counts := AddToBucket(counts, r);
    }
    assert rs[..|rs|] == rs;
    m := Some(Metrics(|rs|, correct, counts));
  }

  /** One more result adds to exactly one bucket. */
  lemma LabelCountSnoc(rs: seq<DentalResult>, x: DentalResult, l: Label)
    ensures LabelCount(rs + [x], l) == LabelCount(rs, l) + (if x.predicted == l then 1 else 0)
    ensures LabelCorrect(rs + [x], l) == LabelCorrect(rs, l) + (if x.predicted == l && x.isCorrect then 1 else 0)
  {
    assert (rs + [x])[..|rs + [x]| - 1] == rs;
  }

  /** The sum of the bucket totals over every possible answer label. */
  function BucketTotal(rs: seq<DentalResult>): nat {
    LabelCount(rs, Chosen(A)) + LabelCount(rs, Chosen(B)) + LabelCount(rs, Chosen(C)) + LabelCount(rs, Chosen(D))
    + LabelCount(rs, Unknown) + LabelCount(rs, Error) + LabelCount(rs, Invalid)
  }

  /** The answer buckets split the results: their totals add up to the number of results. */
  lemma {:induction false} BucketsPartitionResults(rs: seq<DentalResult>)
    ensures BucketTotal(rs) == |rs|
  {
    if rs != [] {
      var init := rs[..|rs| - 1];
      var x := rs[|rs| - 1];
      assert rs == init + [x];
      BucketsPartitionResults(init);
      forall l {
        LabelCountSnoc(init, x, l);
      }
      match x.predicted
      case Chosen(letter) => assert letter == A || letter == B || letter == C || letter == D;
      case _ =>
    }
  }
}

=== FILE: benchmark_base.dfy ===
/**
 The multiple-choice grader and the one-pass benchmark loop of `DentalBenchmark`
 (src/dental/benchmark_base.py): answer extraction from free text, grading against
 the 1-based `cop` field, and the loop that records one result per question.
 */
module BenchmarkBase {
  import opened Wrappers
  import opened Text
  import opened Labels
  import Tally

  /** The explicit answer phrases, tried in this order. */
  const Patterns: seq<string> :=
    ["ANSWER: ", "ANSWER IS ", "CORRECT ANSWER: ", "THE ANSWER IS ", "I CHOOSE ", "OPTION "]

  /** The option letter right after the FIRST occurrence of `pattern` in `up`, when that character is one. */
  function PatternLetter(up: string, pattern: string): (r: Option<Letter>)
    ensures !Contains(up, pattern) ==> r.None?
    ensures forall at :: OccursAt(up, pattern, at) && (forall i :: 0 <= i < at ==> !OccursAt(up, pattern, i)) ==>
      r == (if at + |pattern| < |up| then LetterOf(up[at + |pattern|]) else None)
    ensures r.Some? ==> LetterChar(r.value) in up
  {
    var at := Find(up, pattern);
    if at < 0 then None
    else
      var next := at + |pattern|;
      if next < |up| then LetterOf(up[next]) else None
  }

  /** The first pattern of `ps` (in list order) whose occurrence is followed by an option letter. */
  function PatternScan(up: string, ps: seq<string>): (r: Option<Letter>)
    ensures (forall k :: 0 <= k < |ps| ==> PatternLetter(up, ps[k]).None?) ==> r.None?
    ensures forall k ::
      0 <= k < |ps| && PatternLetter(up, ps[k]).Some? &&
      (forall j :: 0 <= j < k ==> PatternLetter(up, ps[j]).None?)
      ==> r == PatternLetter(up, ps[k])
    ensures r.Some? ==> LetterChar(r.value) in up
  {
    if ps == [] then None
    else
      var hit := PatternLetter(up, ps[0]);
      if hit.Some? then hit
      else
        var rest := PatternScan(up, ps[1..]);
        assert forall k :: 1 <= k < |ps| ==> ps[1..][k - 1] == ps[k];
        assert forall k ::
          0 <= k < |ps| && PatternLetter(up, ps[k]).Some? && (forall j :: 0 <= j < k ==> PatternLetter(up, ps[j]).None?)
          ==> rest == PatternLetter(up, ps[k]) by {
          forall k | 0 <= k < |ps| && PatternLetter(up, ps[k]).Some? && (forall j :: 0 <= j < k ==> PatternLetter(up, ps[j]).None?)
            ensures rest == PatternLetter(up, ps[k])
          {
            assert forall j :: 0 <= j < k - 1 ==> ps[1..][j] == ps[j + 1];
          }
        }
        rest
  }

  /** No explicit answer phrase is followed by an option letter in `up`. */
  predicate NoPatternHit(up: string) {
    forall k :: 0 <= k < |Patterns| ==> PatternLetter(up, Patterns[k]).None?
  }

  /** Pattern `k` is the first of `Patterns` followed by an option letter in `up`. */
  predicate FirstPatternHit(up: string, k: int) {
    && 0 <= k < |Patterns|
    && PatternLetter(up, Patterns[k]).Some?
    && forall j :: 0 <= j < k ==> PatternLetter(up, Patterns[j]).None?
  }

  /** `extract_answer_choice`: the label read from a model response. */
  function ExtractAnswerChoice(response: string): (r: Label)
    ensures r.Chosen? || r == Unknown
    ensures r == Unknown <==> forall l :: LetterChar(l) !in Upper(response)
    ensures r.Chosen? ==> LetterChar(r.letter) in Upper(response)
    ensures forall k :: FirstPatternHit(Upper(response), k) ==>
      r == Chosen(PatternLetter(Upper(response), Patterns[k]).value)
    ensures NoPatternHit(Upper(response)) && r.Chosen? ==>
      forall l :: Ordinal(l) < Ordinal(r.letter) ==> LetterChar(l) !in Upper(response)
  {
    var up := Upper(response);
    var explicit := PatternScan(up, Patterns);
    if explicit.Some? then Chosen(explicit.value)
    else
      var any := FirstContained(up);
      if any.Some? then Chosen(any.value) else Unknown
  }

  /** Matching ignores case: a response and its upper-cased form read the same. */
  lemma ExtractIgnoresCase(response: string)
    ensures ExtractAnswerChoice(Upper(response)) == ExtractAnswerChoice(response)
  {
    UpperIdempotent(response);
  }

  /** `evaluate_answer`: `cop` is 1-based here, 1..4 naming A..D through `option_map`. */
  function EvaluateAnswer(predicted: Label, correctOption: int): (r: bool)
    ensures r <==> predicted.Chosen? && correctOption == Ordinal(predicted.letter) + 1
    ensures r ==> 1 <= correctOption <= 4
    ensures predicted == Unknown || predicted == Error ==> !r
  {
    var optionMap := map[1 := A, 2 := B, 3 := C, 4 := D];
    correctOption in optionMap && predicted == Chosen(optionMap[correctOption])
  }

  datatype Question = Question(
    id: string,
    question: string,
    cop: int,
    topicName: Option<string>,
    subjectName: Option<string>)

  /** What `query_model` did: returned text, or raised an exception with this message. */
  datatype Reply = Answered(text: string) | Raised(message: string)

  /** One stored result; `O` is how the correct option is recorded (the raw `cop` or a letter). */
  datatype Record<O> = Record(
    questionId: string,
    question: string,
    correctOption: O,
    predicted: Label,
    isCorrect: bool,
    response: string,
    topic: string,
    subject: string)

  function Scored<O>(r: Record<O>): bool {
    r.isCorrect
  }

  /** The body of the `try`/`except` for one question: grade a reply, or record `ERROR`. */
  function GradeReply<O>(q: Question, reply: Reply, correctOption: O): (r: Record<O>)
    ensures r.questionId == q.id && r.question == q.question
    ensures r.topic == q.topicName.GetOr("") && r.subject == q.subjectName.GetOr("Dental")
    ensures reply.Raised? ==> r.predicted == Error && !r.isCorrect && r.response == "Error: " + reply.message
    ensures reply.Answered? ==> r.response == reply.text && r.predicted == ExtractAnswerChoice(reply.text)
    ensures r.isCorrect <==> reply.Answered? && r.predicted.Chosen? && q.cop == Ordinal(r.predicted.letter) + 1
  {
    var topic := q.topicName.GetOr("");
    var subject := q.subjectName.GetOr("Dental");
    match reply
    case Answered(text) =>
      var predicted := ExtractAnswerChoice(text);
      Record(q.id, q.question, correctOption, predicted, EvaluateAnswer(predicted, q.cop), text, topic, subject)
    case Raised(message) =>
      Record(q.id, q.question, correctOption, Error, false, "Error: " + message, topic, subject)
  }

  datatype Report = Report(totalQuestions: nat, correctAnswers: nat, results: seq<Record<int>>)

  /**
   `run_benchmark`: every question in dataset order, one result each, an `ERROR`
   result when the query raises, and the running count of correct answers.
   `query(i)` is what `query_model` does for the i-th question.
   */
  method RunBenchmark(questions: seq<Question>, query: nat -> Reply) returns (report: Report)
    ensures report.totalQuestions == |questions|
    ensures |report.results| == |questions|
    ensures forall i :: 0 <= i < |questions| ==>
      report.results[i] == GradeReply(questions[i], query(i), questions[i].cop)
    ensures forall i :: 0 <= i < |questions| && query(i).Raised? ==>
      report.results[i].predicted == Error && !report.results[i].isCorrect
    ensures report.correctAnswers == Tally.Count(report.results, Scored)
    ensures report.correctAnswers <= report.totalQuestions
  {
    var results: seq<Record<int>> := [];
    var correct: nat := 0;
    for i := 0 to |questions|
      invariant |results| == i
      invariant forall j :: 0 <= j < i ==> results[j] == GradeReply(questions[j], query(j), questions[j].cop)
      invariant correct == Tally.Count(results, Scored)
    {
      var rec := GradeReply(questions[i], query(i), questions[i].cop);
      if rec.isCorrect {
        correct := correct + 1;
      }
      Tally.CountSnoc(results, rec, Scored);
      results := results + [rec];
    }
    report := Report(|questions|, correct, results);
  }

  /** A phrase holding a character that `s` lacks does not occur in `s`. */
  lemma AbsentCharAbsentPhrase(s: string, phrase: string, c: char)
    requires c in phrase && c !in s
    ensures !Contains(s, phrase)
  {
  }

  lemma WordedAnswerUpper()
    ensures Upper("The answer is B.") == "THE ANSWER IS B."
  {
  }

  /** "ANSWER IS " first occurs at position 4 of the upper-cased reply, followed by `B`. */
  lemma WordedAnswerPattern()
    ensures PatternLetter("THE ANSWER IS B.", Patterns[1]) == Some(B)
  {
    var up := "THE ANSWER IS B.";
    assert OccursAt(up, Patterns[1], 4);
    var at := Find(up, Patterns[1]);
    assert at == 4 by {
      assert up[at] == Patterns[1][0];
    }
  }

  /** A worded answer is read from the phrase that introduces it and graded against `cop` 2. */
  lemma WordedAnswerExample(response: string)
    requires response == "The answer is B."
    ensures ExtractAnswerChoice(response) == Chosen(B)
    ensures EvaluateAnswer(ExtractAnswerChoice(response), 2)
  {
    WordedAnswerUpper();
    var up := Upper(response);
    AbsentCharAbsentPhrase(up, Patterns[0], ':');
    WordedAnswerPattern();
    assert FirstPatternHit(up, 1);
  }

  /** A response naming no option letter is UNKNOWN and never graded correct. */
  lemma NonAnswerExample(response: string, cop: int)
    requires response == "I'm not sure"
    ensures ExtractAnswerChoice(response) == Unknown
    ensures !EvaluateAnswer(ExtractAnswerChoice(response), cop)
  {
    var up := Upper(response);
    assert up == "I'M NOT SURE";
    assert 'A' !in up && 'B' !in up && 'C' !in up && 'D' !in up;
    assert forall l :: LetterChar(l) !in up;
  }

  /** A response that upper-cases to a single option letter is read as that letter. */
  lemma SingleLetterResponse(response: string, l: Letter)
    requires Upper(response) == [LetterChar(l)]
    ensures ExtractAnswerChoice(response) == Chosen(l)
  {
    var up := Upper(response);
    assert PatternScan(up, Patterns).None? by {
      forall k | 0 <= k < |Patterns|
        ensures PatternLetter(up, Patterns[k]).None?
      {
        assert |up| < |Patterns[k]|;
      }
    }
    assert FirstContained(up) == Some(l) by {
      assert LetterChar(l) in up;
    }
  }

  /** A lower-case letter is read case-insensitively: "d" is correct for `cop` 4. */
  lemma LowerCaseExample(response: string)
    requires response == "d"
    ensures ExtractAnswerChoice(response) == Chosen(D)
    ensures EvaluateAnswer(ExtractAnswerChoice(response), 4)
  {
    assert Upper(response) == [LetterChar(D)];
    SingleLetterResponse(response, D);
  }
}

=== FILE: labels.dfy ===
/**
 Answer labels shared by the multiple-choice graders: the four option letters and
 the sentinel values `UNKNOWN`, `ERROR` and `INVALID` that the scripts store as
 predicted answers.
 */
module Labels {
  import opened Wrappers

  datatype Letter = A | B | C | D

  datatype Label = Chosen(letter: Letter) | Unknown | Error | Invalid

  function LetterChar(l: Letter): char {
    match l
    case A => 'A'
    case B => 'B'
    case C => 'C'
    case D => 'D'
  }

  /** Position of the letter in the option list; also its priority in the fallback scan. */
  function Ordinal(l: Letter): nat {
    match l
    case A => 0
    case B => 1
    case C => 2
    case D => 3
  }

  /** The option letter a single character names, if any (`c in ['A', 'B', 'C', 'D']`). */
  function LetterOf(c: char): (r: Option<Letter>)
    ensures r.Some? <==> exists l :: LetterChar(l) == c
    ensures r.Some? ==> LetterChar(r.value) == c
  {
    if c == 'A' then assert LetterChar(A) == c; Some(A)
    else if c == 'B' then assert LetterChar(B) == c; Some(B)
    else if c == 'C' then assert LetterChar(C) == c; Some(C)
    else if c == 'D' then assert LetterChar(D) == c; Some(D)
    else None
  }

  /** The string each label is stored as in the result files. */
  function Text(l: Label): string {
    match l
    case Chosen(x) => [LetterChar(x)]
    case Unknown => "UNKNOWN"
    case Error => "ERROR"
    case Invalid => "INVALID"
  }

  /** Comparing stored strings is the same as comparing labels. */
  lemma TextInjective(l1: Label, l2: Label)
    ensures Text(l1) == Text(l2) <==> l1 == l2
  {
  }

  /**
   The letter-priority scan `for option in ['A', 'B', 'C', 'D']: if option in s`:
   the first letter, in the order A, B, C, D, that occurs anywhere in `s`. The
   position of the occurrence in `s` plays no part.
   */
  function FirstContained(s: string): (r: Option<Letter>)
    ensures r.None? <==> forall l :: LetterChar(l) !in s
    ensures r.Some? ==> LetterChar(r.value) in s
    ensures r.Some? ==> forall l :: Ordinal(l) < Ordinal(r.value) ==> LetterChar(l) !in s
  {
    if 'A' in s then assert LetterChar(A) in s; Some(A)
    else if 'B' in s then assert LetterChar(B) in s; Some(B)
    else if 'C' in s then assert LetterChar(C) in s; Some(C)
    else if 'D' in s then assert LetterChar(D) in s; Some(D)
    else None
  }

  /** At most one letter occurs in `s` with no letter of higher priority before it in A, B, C, D order. */
  lemma HighestPriorityUnique(s: string, a: Letter, b: Letter)
    requires LetterChar(a) in s && forall l :: Ordinal(l) < Ordinal(a) ==> LetterChar(l) !in s
    requires LetterChar(b) in s && forall l :: Ordinal(l) < Ordinal(b) ==> LetterChar(l) !in s
    ensures a == b
  {
  }

  /** The scan picks the letter of highest priority, not the letter seen first. */
  lemma PriorityNotPosition()
    ensures FirstContained("D) MAXILLA") == Some(A)
  {
    assert "D) MAXILLA"[4] == 'A';
  }
}

=== FILE: local_api.dfy ===
/**
 `call_local_api` and `test_api_connection`, which both agir scripts define
 identically (src/dental/agir/agir_dental_benchmark.py and
 src/dental/agir/agir_benchmark.py): a bounded retry loop around one HTTP POST.
 The network is replaced by `outcome(k)`, what the k-th attempt gave.
 */
module LocalApi {
  import opened Wrappers
  import opened Text

  /** What one POST attempt gave. */
  datatype Attempt =
    | RequestFailed            // a `requests.exceptions.RequestException`: connection error, timeout, HTTP error status
    | OtherFailure             // any other exception, such as a body that is not JSON or a choice without `text`
    | NoChoices                // a JSON body without a non-empty `choices` list
    | Completion(text: string) // `choices[0]['text']`

  /** The attempts after which the loop tries again. */
  predicate Retryable(a: Attempt) {
    a.RequestFailed? || a.OtherFailure?
  }

  /** The returned text (`None` for Python's `None`) and how many attempts were made. */
  datatype ApiCall = ApiCall(response: Option<string>, attempts: nat)

  /** The retry loop from attempt number `attempt` on. */
  function TryFrom(outcome: nat -> Attempt, maxRetries: int, attempt: nat): (r: ApiCall)
    requires attempt <= maxRetries || attempt == 0
    decreases if attempt < maxRetries then maxRetries - attempt else 0
    ensures attempt <= r.attempts
    ensures r.attempts <= (if maxRetries > attempt then maxRetries else attempt)
    ensures attempt < maxRetries ==> attempt < r.attempts
    ensures forall k :: attempt <= k < r.attempts - 1 ==> Retryable(outcome(k))
    ensures r.response.Some? <==> attempt < r.attempts && outcome(r.attempts - 1).Completion?
    ensures r.response.Some? ==> r.response.value == Strip(outcome(r.attempts - 1).text)
    ensures attempt < r.attempts < maxRetries ==> !Retryable(outcome(r.attempts - 1))
  {
    if attempt >= maxRetries then ApiCall(None, attempt)
    else
      match outcome(attempt)
      case Completion(text) => ApiCall(Some(Strip(text)), attempt + 1)
      case NoChoices => ApiCall(None, attempt + 1)
      case _ =>
        if attempt < maxRetries - 1 then TryFrom(outcome, maxRetries, attempt + 1)
        else ApiCall(None, attempt + 1)
  }

  /**
   `call_local_api(prompt, max_retries)`: at most `max_retries` attempts; a failed
   request or other exception is retried; a well-formed reply ends the loop at
   once, with its stripped text or, when it has no choices, with `None`.
   */
  function CallLocalApi(outcome: nat -> Attempt, maxRetries: int): (r: ApiCall)
    ensures r.attempts <= (if maxRetries > 0 then maxRetries else 0)
    ensures maxRetries > 0 ==> r.attempts > 0
    ensures forall k :: 0 <= k < r.attempts - 1 ==> Retryable(outcome(k))
    ensures r.response.Some? <==> r.attempts > 0 && outcome(r.attempts - 1).Completion?
    ensures r.response.Some? ==> r.response.value == Strip(outcome(r.attempts - 1).text)
    ensures 0 < r.attempts < maxRetries ==> !Retryable(outcome(r.attempts - 1))
  {
    TryFrom(outcome, maxRetries, 0)
  }

  /** The default bound used by `process_question` and `process_entry`. */
  const DefaultRetries: int := 3

  /** A reply without choices is not retried: the call ends after that one attempt with `None`. */
  lemma UnexpectedShapeNotRetried(outcome: nat -> Attempt, maxRetries: int)
    requires maxRetries > 0
    requires outcome(0) == NoChoices
    ensures CallLocalApi(outcome, maxRetries) == ApiCall(None, 1)
  {
  }

  /** `test_api_connection`: a single attempt that must return some text. */
  function TestApiConnection(outcome: nat -> Attempt): (ok: bool)
    ensures ok <==> outcome(0).Completion?
  {
    CallLocalApi(outcome, 1).response.Some?
  }
}

=== FILE: openai_benchmark.dfy ===
/**
 The resumable run of `OpenAIBenchmark` (src/dental/openai_benchmark_base.py): the
 resume point is the number of data rows already in the results CSV, an optional
 limit caps how many new questions one invocation handles, and every processed
 index yields exactly one result record.
 */
module OpenAIBenchmark {
  import opened Wrappers
  import opened Labels
  import opened BenchmarkBase
  import Tally

  /** What reading the results CSV gives: no file, an exception while reading, or this many rows (header included). */
  datatype CsvRead = Missing | Unreadable | Rows(count: nat)

  /** `get_completed_count`: the data rows of the results CSV, the header not counted; 0 when it cannot be read. */
  function CompletedCount(csv: CsvRead): (n: nat)
    ensures csv.Rows? && csv.count >= 1 ==> n + 1 == csv.count
    ensures csv.Missing? || csv.Unreadable? || csv == Rows(0) ==> n == 0
  {
    match csv
    case Rows(k) => if k - 1 > 0 then k - 1 else 0
    case _ => 0
  }

  /**
   How many questions this invocation runs: `min(limit, remaining)` when `limit`
   is truthy, the whole remainder when it is `None` or 0.
   */
  function QuestionsToRun(limit: Option<int>, remaining: int): (n: int)
    ensures limit.None? || limit.value == 0 ==> n == remaining
    ensures limit.Some? && limit.value != 0 ==>
      n <= remaining && n <= limit.value && (n == remaining || n == limit.value)
  {
    if limit.Some? && limit.value != 0 then
      (if limit.value < remaining then limit.value else remaining)
    else remaining
  }

  /** The records of one invocation so far, with the running count of correct answers. */
  datatype Tallied = Tallied(results: seq<Record<string>>, correct: nat)

  /**
   The per-question body of `run_benchmark`'s loop: grade the reply (or record
   `ERROR`), with the correct option rendered by `optionText`, which stands for
   `get_correct_option_letter` (the class does not define it).
   */
  function Grader(optionText: int -> string): (Question, Reply) -> Record<string> {
    (q: Question, reply: Reply) => GradeReply(q, reply, optionText(q.cop))
  }

  /** The record the loop appends (and writes to the CSV) for dataset index `i`. */
  function RecordAt(questions: seq<Question>, query: nat -> Reply, grade: (Question, Reply) -> Record<string>, i: nat)
    : Record<string>
    requires i < |questions|
  {
    grade(questions[i], query(i))
  }

  /**
   The loop `for i in range(lo, hi)` of `run_benchmark`: one record appended per index,
   in ascending order, and `correct_answers` incremented for each correct one.
   `query(i)` is what `query_model` does for question `i`.
   */
  function Segment(questions: seq<Question>, query: nat -> Reply, grade: (Question, Reply) -> Record<string>, lo: nat, hi: nat)
    : (r: Tallied)
    requires lo <= hi <= |questions|
    decreases hi
    ensures |r.results| == hi - lo
    ensures r.correct <= |r.results|
  {
    if hi == lo then Tallied([], 0)
    else
      var before := Segment(questions, query, grade, lo, hi - 1);
      var rec := RecordAt(questions, query, grade, hi - 1);
      Tallied(before.results + [rec], before.correct + if rec.isCorrect then 1 else 0)
  }

  /** The running tally `correct_answers` equals the number of appended records marked correct. */
  lemma {:induction false} SegmentTally(
    questions: seq<Question>, query: nat -> Reply, grade: (Question, Reply) -> Record<string>, lo: nat, hi: nat)
    requires lo <= hi <= |questions|
    ensures Segment(questions, query, grade, lo, hi).correct
         == Tally.Count(Segment(questions, query, grade, lo, hi).results, Scored)
    decreases hi
  {
    if hi > lo {
      SegmentTally(questions, query, grade, lo, hi - 1);
      var before := Segment(questions, query, grade, lo, hi - 1);
      var rec := RecordAt(questions, query, grade, hi - 1);
      assert Segment(questions, query, grade, lo, hi)
          == Tallied(before.results + [rec], before.correct + if Scored(rec) then 1 else 0);
      Tally.CountSnoc(before.results, rec, Scored);
    }
  }

  /** Exactly one result per index, in ascending order: position `k` holds the record for index `lo + k`. */
  lemma {:induction false} SegmentIndices(
    questions: seq<Question>, query: nat -> Reply, grade: (Question, Reply) -> Record<string>, lo: nat, hi: nat)
    requires lo <= hi <= |questions|
    ensures forall k {:trigger Segment(questions, query, grade, lo, hi).results[k]} :: 0 <= k < hi - lo ==>
      Segment(questions, query, grade, lo, hi).results[k] == RecordAt(questions, query, grade, lo + k)
    decreases hi
  {
    if hi > lo {
      SegmentIndices(questions, query, grade, lo, hi - 1);
      var prefix := Segment(questions, query, grade, lo, hi - 1).results;
      var last := RecordAt(questions, query, grade, hi - 1);
      assert Segment(questions, query, grade, lo, hi).results == prefix + [last];
      forall k | 0 <= k < hi - lo
        ensures Segment(questions, query, grade, lo, hi).results[k] == RecordAt(questions, query, grade, lo + k)
      {
        if k < hi - 1 - lo {
          assert (prefix + [last])[k] == prefix[k];
        }
      }
    }
  }

  /** Consecutive segments join into one: running `[a, b)` and then `[b, c)` is running `[a, c)`. */
  lemma {:induction false} SegmentSplit(
    questions: seq<Question>, query: nat -> Reply, grade: (Question, Reply) -> Record<string>, a: nat, b: nat, c: nat)
    requires a <= b <= c <= |questions|
    ensures Segment(questions, query, grade, a, b).results + Segment(questions, query, grade, b, c).results
         == Segment(questions, query, grade, a, c).results
    decreases c
  {
    if c == b {
      assert Segment(questions, query, grade, b, c).results == [];
    } else {
      SegmentSplit(questions, query, grade, a, b, c - 1);
      var last := RecordAt(questions, query, grade, c - 1);
      assert Segment(questions, query, grade, b, c).results
          == Segment(questions, query, grade, b, c - 1).results + [last];
      assert Segment(questions, query, grade, a, c).results
          == Segment(questions, query, grade, a, c - 1).results + [last];
    }
  }

  datatype Status = AlreadyCompleted | Ran

  datatype RunReport = RunReport(
    status: Status,
    totalQuestions: nat,
    completedQuestions: int,
    newQuestions: int,
    correctAnswers: nat,
    results: seq<Record<string>>)

  /**
   The index range `[start_index, end_index)` a run covers, given the resume point:
   it starts at the resume point, never passes the end of the dataset, and holds
   at most `limit` indices when `limit` is positive.
   */
  function WorkEnd(total: nat, completed: nat, limit: Option<int>): (hi: nat)
    requires completed < total
    ensures completed <= hi <= total
    ensures limit.None? || limit.value == 0 ==> hi == total
    ensures limit.Some? && limit.value > 0 ==> hi - completed == (if limit.value < total - completed then limit.value else total - completed)
    ensures limit.Some? && limit.value < 0 ==> hi == completed
  {
    var toRun := QuestionsToRun(limit, total - completed);
    if toRun < 0 then completed else completed + toRun
  }

  /** `run_benchmark(limit)`: resume after the rows already in the CSV and run at most `limit` more questions. */
  function Run(questions: seq<Question>, csv: CsvRead, limit: Option<int>, optionText: int -> string, query: nat -> Reply)
    : (r: RunReport)
    ensures r.totalQuestions == |questions|
    ensures CompletedCount(csv) >= |questions| ==>
      && r.status == AlreadyCompleted
      && r.newQuestions == 0 && r.results == [] && r.correctAnswers == 0
      && r.completedQuestions == CompletedCount(csv)
    ensures CompletedCount(csv) < |questions| ==>
      && r.status == Ran
      && r.newQuestions == QuestionsToRun(limit, |questions| - CompletedCount(csv))
      && r.completedQuestions == CompletedCount(csv) + r.newQuestions
      && r.completedQuestions <= |questions|
      && r.results == Segment(questions, query, Grader(optionText), CompletedCount(csv), WorkEnd(|questions|, CompletedCount(csv), limit)).results
      && r.correctAnswers <= |r.results|
  {
    var total := |questions|;
    var completed := CompletedCount(csv);
    if completed >= total then
      RunReport(AlreadyCompleted, total, completed, 0, 0, [])
    else
      var toRun := QuestionsToRun(limit, total - completed);
      var run := Segment(questions, query, Grader(optionText), completed, WorkEnd(total, completed, limit));
      RunReport(Ran, total, completed + toRun, toRun, run.correct, run.results)
  }

  /** The reported `correct_answers` is the number of this run's records marked correct. */
  lemma RunTally(questions: seq<Question>, csv: CsvRead, limit: Option<int>, optionText: int -> string, query: nat -> Reply)
    ensures var r := Run(questions, csv, limit, optionText, query);
      r.correctAnswers == Tally.Count(r.results, Scored)
  {
    if CompletedCount(csv) < |questions| {
      SegmentTally(questions, query, Grader(optionText), CompletedCount(csv), WorkEnd(|questions|, CompletedCount(csv), limit));
    }
  }

  /**
   Record `k` of a run is the graded reply for dataset index `completed + k`; a
   query that raised gives an `ERROR` record that is not correct, and the loop
   goes on with the next index.
   */
  lemma RunRecordAt(
    questions: seq<Question>, csv: CsvRead, limit: Option<int>, optionText: int -> string, query: nat -> Reply, k: nat)
    requires CompletedCount(csv) < |questions|
    requires k < |Run(questions, csv, limit, optionText, query).results|
    ensures var i := CompletedCount(csv) + k;
      var rec := Run(questions, csv, limit, optionText, query).results[k];
      && i < |questions|
      && rec == GradeReply(questions[i], query(i), optionText(questions[i].cop))
      && (query(i).Raised? ==> rec.predicted == Error && !rec.isCorrect)
  {
    var lo := CompletedCount(csv);
    var hi := WorkEnd(|questions|, lo, limit);
    SegmentIndices(questions, query, Grader(optionText), lo, hi);
    assert Run(questions, csv, limit, optionText, query).results[k] == RecordAt(questions, query, Grader(optionText), lo + k);
  }

  /**
   Resumption is idempotent: after a run without a limit has appended its records
   to a CSV holding a header and `done` earlier records, the next run finds every
   question completed and makes no query.
   */
  lemma FullRunThenAlreadyCompleted(
    questions: seq<Question>, done: nat, optionText: int -> string, query: nat -> Reply,
    limit2: Option<int>, query2: nat -> Reply)
    requires done < |questions|
    ensures var first := Run(questions, Rows(1 + done), None, optionText, query);
      var second := Run(questions, Rows(1 + done + |first.results|), limit2, optionText, query2);
      && first.status == Ran
      && second.status == AlreadyCompleted && second.newQuestions == 0 && second.results == []
  {
  }

  /**
   A limited run followed by a resumed run covers the same indices, in the same
   order, as one unlimited run: nothing is processed twice and nothing is skipped.
   */
  lemma LimitedThenResumed(
    questions: seq<Question>, done: nat, limit: nat, optionText: int -> string, query: nat -> Reply)
    requires done < |questions|
    requires 0 < limit
    ensures var first := Run(questions, Rows(1 + done), Some(limit), optionText, query);
      var second := Run(questions, Rows(1 + done + |first.results|), None, optionText, query);
      first.results + second.results == Run(questions, Rows(1 + done), None, optionText, query).results
  {
    var total := |questions|;
    var mid := WorkEnd(total, done, Some(limit));
    assert CompletedCount(Rows(1 + done)) == done;
    var first := Run(questions, Rows(1 + done), Some(limit), optionText, query);
    assert first.results == Segment(questions, query, Grader(optionText), done, mid).results;
    assert CompletedCount(Rows(1 + done + |first.results|)) == mid;
    if mid < total {
      assert WorkEnd(total, mid, None) == total;
      SegmentSplit(questions, query, Grader(optionText), done, mid, total);
    }
  }

  /**
   A negative limit is truthy, so `min(limit, remaining)` is negative: the run queries
   nothing and reports a negative `new_questions` and a completed count below the
   resume point.
   */
  lemma NegativeLimitReportsNegativeProgress(
    questions: seq<Question>, csv: CsvRead, limit: int, optionText: int -> string, query: nat -> Reply)
    requires limit < 0
    requires CompletedCount(csv) < |questions|
    ensures var r := Run(questions, csv, Some(limit), optionText, query);
      r.results == [] && r.newQuestions == limit && r.completedQuestions == CompletedCount(csv) + limit
  {
  }
}

=== FILE: slices.dfy ===
/** Python's slicing with one bound, as the resumable scripts use it. */
module Slices {
  /** `s[start:]`, including a negative `start` counted from the end. */
  function SliceFrom<T>(s: seq<T>, start: int): (r: seq<T>)
    ensures 0 <= start <= |s| ==> r == s[start..]
    ensures start > |s| ==> r == []
    ensures start < 0 ==> |r| == (if -start < |s| then -start else |s|)
    ensures r == s[|s| - |r|..]
  {
    if start < 0 then (if |s| + start > 0 then s[|s| + start..] else s)
    else if start <= |s| then s[start..]
    else []
  }

  /**
   The `if limit > 0: xs = xs[:limit]` idiom: a positive limit keeps at most
   that many items from the front; zero or a negative value keeps everything.
   */
  function Cap<T>(s: seq<T>, limit: int): (r: seq<T>)
    ensures limit <= 0 ==> r == s
    ensures limit > 0 ==> |r| == (if limit < |s| then limit else |s|)
    ensures r == s[..|r|]
  {
    if limit > 0 && limit < |s| then s[..limit] else s
  }

  /** Taking a suffix and then capping it never yields anything outside the original sequence. */
  lemma SliceFromCapIndex<T>(s: seq<T>, start: int, limit: int, j: int)
    requires 0 <= start
    requires 0 <= j < |Cap(SliceFrom(s, start), limit)|
    ensures start + j < |s|
    ensures Cap(SliceFrom(s, start), limit)[j] == s[start + j]
  {
  }
}

=== FILE: subject_split.dfy ===
/**
 Splitting MedMCQA into one JSON-lines file per subject and split
 (src/dataset_process/seperate_dataset_by_subject.py): the cleaned subject name,
 the file name for each split, the grouping of samples by subject, and the set
 of all subjects.
 */
module SubjectSplit {
  import opened Wrappers
  import opened Text

  /** `s.replace(c, by)` for a single character `c`: every occurrence, left to right. */
  function ReplaceChar(s: string, c: char, sub: string): (r: string)
    ensures c !in sub ==> c !in r
    ensures forall x :: x in r ==> x in s || x in sub
    ensures forall x :: x in s && x != c ==> x in r
  {
    if s == [] then []
    else
      var init := s[..|s| - 1];
      var x := s[|s| - 1];
      var r' := ReplaceChar(init, c, sub);
      assert forall y :: y in s ==> y in init || y == x;
      r' + (if x == c then sub else [x])
  }

  lemma ReplaceCharSnoc(s: string, x: char, c: char, sub: string)
    ensures ReplaceChar(s + [x], c, sub) == ReplaceChar(s, c, sub) + (if x == c then sub else [x])
  {
    assert (s + [x])[..|s|] == s;
  }

  /** Replacing distributes over concatenation: no occurrence spans the seam of a one-character pattern. */
  lemma {:induction false} ReplaceCharConcat(a: string, b: string, c: char, sub: string)
    ensures ReplaceChar(a + b, c, sub) == ReplaceChar(a, c, sub) + ReplaceChar(b, c, sub)
    decreases |b|
  {
    if b == [] {
      assert a + b == a;
    } else {
      var b' := b[..|b| - 1];
      var x := b[|b| - 1];
      assert a + b == (a + b') + [x];
      assert b == b' + [x];
      ReplaceCharConcat(a, b', c, sub);
      ReplaceCharSnoc(a + b', x, c, sub);
      ReplaceCharSnoc(b', x, c, sub);
    }
  }

  /** `clean_subject`: lower-case, `' '` to `'_'`, `'&'` to `"and"`, and `'('`, `')'` dropped, in that order. */
  function CleanSubject(subject: string): (r: string)
    ensures ' ' !in r && '&' !in r && '(' !in r && ')' !in r
    ensures forall x :: x in r ==> !IsUpperAscii(x)
  {
    var lowered := Lower(subject);
    assert forall x :: x in lowered ==> !IsUpperAscii(x);
    var spaced := ReplaceChar(lowered, ' ', "_");
    assert ' ' !in spaced && forall x :: x in spaced ==> !IsUpperAscii(x);
    var anded := ReplaceChar(spaced, '&', "and");
    assert ' ' !in anded && '&' !in anded && forall x :: x in anded ==> !IsUpperAscii(x);
    var unbracketed := ReplaceChar(anded, '(', "");
    assert ' ' !in unbracketed && '&' !in unbracketed && '(' !in unbracketed && forall x :: x in unbracketed ==> !IsUpperAscii(x);
    ReplaceChar(unbracketed, ')', "")
  }

  /** What one character of a subject name becomes in the file name. */
  function CleanChar(c: char): string {
    if c == ' ' then "_"
    else if c == '&' then "and"
    else if c == '(' || c == ')' then ""
    else [ToLower(c)]
  }

  /** The cleaned name character by character: the reference the chain of replacements is checked against. */
  function CleanRef(s: string): string {
    if s == [] then [] else CleanRef(s[..|s| - 1]) + CleanChar(s[|s| - 1])
  }

  /** Replacing a character that does not occur changes nothing. */
  lemma {:induction false} ReplaceAbsent(s: string, c: char, sub: string)
    requires c !in s
    ensures ReplaceChar(s, c, sub) == s
  {
    if s != [] {
      assert s == s[..|s| - 1] + [s[|s| - 1]];
      ReplaceAbsent(s[..|s| - 1], c, sub);
    }
  }

  lemma ReplaceOne(x: char, c: char, sub: string)
    ensures ReplaceChar([x], c, sub) == if x == c then sub else [x]
  {
    ReplaceCharSnoc([], x, c, sub);
    assert [] + [x] == [x];
  }

  lemma CleanOneChar(c: char)
    ensures CleanSubject([c]) == CleanChar(c)
  {
    var l := ToLower(c);
    assert Lower([c]) == [l];
    ReplaceOne(l, ' ', "_");
    var s1 := ReplaceChar([l], ' ', "_");
    if c == ' ' {
      ReplaceAbsent("_", '&', "and");
      ReplaceAbsent("_", '(', "");
      ReplaceAbsent("_", ')', "");
    } else {
      assert s1 == [l];
      ReplaceOne(l, '&', "and");
      if c == '&' {
        ReplaceAbsent("and", '(', "");
        ReplaceAbsent("and", ')', "");
      } else {
        ReplaceOne(l, '(', "");
        if c == '(' {
          ReplaceAbsent("", ')', "");
        } else {
          ReplaceOne(l, ')', "");
        }
      }
    }
  }

  lemma CleanConcat(a: string, b: string)
    ensures CleanSubject(a + b) == CleanSubject(a) + CleanSubject(b)
  {
    assert Lower(a + b) == Lower(a) + Lower(b);
    var l1 := Lower(a);
    var l2 := Lower(b);
    ReplaceCharConcat(l1, l2, ' ', "_");
    var s1 := ReplaceChar(l1, ' ', "_");
    var s2 := ReplaceChar(l2, ' ', "_");
    ReplaceCharConcat(s1, s2, '&', "and");
    var t1 := ReplaceChar(s1, '&', "and");
    var t2 := ReplaceChar(s2, '&', "and");
    ReplaceCharConcat(t1, t2, '(', "");
    ReplaceCharConcat(ReplaceChar(t1, '(', ""), ReplaceChar(t2, '(', ""), ')', "");
  }

  /** The chain of `replace` calls is the same as cleaning each character on its own. */
  lemma {:induction false} CleanSubjectCharwise(s: string)
    ensures CleanSubject(s) == CleanRef(s)
  {
    if s != [] {
      var init := s[..|s| - 1];
      var x := s[|s| - 1];
      assert s == init + [x];
      CleanSubjectCharwise(init);
      CleanConcat(init, [x]);
      CleanOneChar(x);
    }
  }

  /**
   Cleaning loses information: a subject with a space and one with an underscore
   in its place get the same name, and so write to the same file.
   */
  lemma CleanSubjectCollides(a: string, b: string)
    ensures CleanSubject(a + [' '] + b) == CleanSubject(a + ['_'] + b)
  {
    CleanConcat(a + [' '], b);
    CleanConcat(a, [' ']);
    CleanConcat(a + ['_'], b);
    CleanConcat(a, ['_']);
    assert CleanSubject([' ']) == CleanSubject(['_']) by {
      CleanOneChar(' ');
      CleanOneChar('_');
    }
  }

  datatype Split = Train | Test | Validation

  /** The split names used as keys of the dataset. */
  function SplitName(s: Split): string {
    match s
    case Train => "train"
    case Test => "test"
    case Validation => "validation"
  }

  /** The word between the cleaned name and `.jsonl`: the split's name, shortened to `valid` for validation. */
  function SplitWord(split: Split): string {
    if split == Validation then "valid" else SplitName(split)
  }

  /** The file name of one subject's samples of one split. */
  function FileName(clean: string, split: Split): string {
    clean + "_" + SplitWord(split) + ".jsonl"
  }

  lemma FileNameParts(clean: string, w: string)
    requires |w| > 0
    ensures |clean + "_" + w + ".jsonl"| == |clean| + |w| + 7
    ensures (clean + "_" + w + ".jsonl")[..|clean|] == clean
    ensures (clean + "_" + w + ".jsonl")[|clean| + |w|] == w[|w| - 1]
  {
  }

  /** A file name determines both the cleaned subject and the split: files of different splits never clash. */
  lemma FileNameInjective(a: string, s1: Split, b: string, s2: Split)
    requires FileName(a, s1) == FileName(b, s2)
    ensures a == b && s1 == s2
  {
    var w1 := SplitWord(s1);
    var w2 := SplitWord(s2);
    FileNameParts(a, w1);
    FileNameParts(b, w2);
    // The letter before ".jsonl" is 'n', 't' or 'd' for train, test and valid.
    assert w1[|w1| - 1] == w2[|w2| - 1];
    assert s1 == s2;
  }

  /** One sample of the dataset; only its `subject_name` matters here, the rest is kept as it is. */
  datatype Sample = Sample(subjectName: string, record: string)

  /** One subject's samples, as collected in `subjects_data`. */
  datatype Group = Group(subject: string, samples: seq<Sample>)

  /** The position of the group for `subject`, if there is one. */
  function GroupIndex(gs: seq<Group>, subject: string): (k: Option<nat>)
    ensures k.None? <==> forall i :: 0 <= i < |gs| ==> gs[i].subject != subject
    ensures k.Some? ==> k.value < |gs| && gs[k.value].subject == subject
  {
    if gs == [] then None
    else if gs[|gs| - 1].subject == subject then Some(|gs| - 1)
    else GroupIndex(gs[..|gs| - 1], subject)
  }

  /** `subjects_data[subject].append(sample)`: a new subject's group goes last. */
  function AddSample(gs: seq<Group>, x: Sample): seq<Group> {
    match GroupIndex(gs, x.subjectName)
    case None => gs + [Group(x.subjectName, [x])]
    case Some(k) => gs[k := Group(gs[k].subject, gs[k].samples + [x])]
  }

  /** The grouping loop over one split, in the dictionary's insertion order. */
  function GroupBySubject(xs: seq<Sample>): seq<Group> {
    if xs == [] then [] else AddSample(GroupBySubject(xs[..|xs| - 1]), xs[|xs| - 1])
  }

  /** The samples of `subject`, in dataset order: the reference for one group. */
  function OfSubject(xs: seq<Sample>, subject: string): (r: seq<Sample>)
    ensures |r| <= |xs|
    ensures forall k :: 0 <= k < |r| ==> r[k].subjectName == subject && r[k] in xs
  {
    if xs == [] then []
    else
      var r' := OfSubject(xs[..|xs| - 1], subject);
      assert forall y :: y in xs[..|xs| - 1] ==> y in xs;
      r' + (if xs[|xs| - 1].subjectName == subject then [xs[|xs| - 1]] else [])
  }

  function Subjects(xs: seq<Sample>): set<string> {
    set x | x in xs :: x.subjectName
  }

  /** The number of samples over all groups. */
  function TotalSize(gs: seq<Group>): nat {
    if gs == [] then 0 else TotalSize(gs[..|gs| - 1]) + |gs[|gs| - 1].samples|
  }

  lemma {:induction false} TotalSizeUpdate(gs: seq<Group>, k: nat, g: Group)
    requires k < |gs|
    ensures TotalSize(gs[k := g]) + |gs[k].samples| == TotalSize(gs) + |g.samples|
  {
    if k < |gs| - 1 {
      assert gs[k := g][..|gs| - 1] == gs[..|gs| - 1][k := g];
      TotalSizeUpdate(gs[..|gs| - 1], k, g);
    } else {
      assert gs[k := g][..|gs| - 1] == gs[..|gs| - 1];
    }
  }

  lemma TotalSizeSnoc(gs: seq<Group>, g: Group)
    ensures TotalSize(gs + [g]) == TotalSize(gs) + |g.samples|
  {
    assert (gs + [g])[..|gs|] == gs;
  }

  /** No two groups have the same subject. */
  ghost predicate DistinctSubjects(gs: seq<Group>) {
    forall i, j :: 0 <= i < j < |gs| ==> gs[i].subject != gs[j].subject
  }

  /** Each group holds exactly the samples of its subject, in order, and at least one. */
  ghost predicate HoldsOwnSamples(gs: seq<Group>, xs: seq<Sample>) {
    forall i :: 0 <= i < |gs| ==> gs[i].samples == OfSubject(xs, gs[i].subject) && gs[i].samples != []
  }

  /** There is a group for a subject exactly when some sample has it. */
  ghost predicate CoversSubjects(gs: seq<Group>, xs: seq<Sample>) {
    forall s :: s in Subjects(xs) <==> GroupIndex(gs, s).Some?
  }

  lemma OfSubjectSnoc(xs: seq<Sample>, x: Sample, s: string)
    ensures OfSubject(xs + [x], s) == OfSubject(xs, s) + (if x.subjectName == s then [x] else [])
  {
    assert (xs + [x])[..|xs|] == xs;
  }

  lemma SubjectsSnoc(xs: seq<Sample>, x: Sample)
    ensures Subjects(xs + [x]) == Subjects(xs) + {x.subjectName}
  {
    assert forall y :: y in xs + [x] <==> y in xs || y == x;
  }

  lemma AddSampleDistinct(gs: seq<Group>, x: Sample)
    requires DistinctSubjects(gs)
    ensures DistinctSubjects(AddSample(gs, x))
  {
  }

  lemma AddSampleSize(gs: seq<Group>, x: Sample)
    ensures TotalSize(AddSample(gs, x)) == TotalSize(gs) + 1
  {
    match GroupIndex(gs, x.subjectName)
    case None =>
      TotalSizeSnoc(gs, Group(x.subjectName, [x]));
    case Some(k) =>
      TotalSizeUpdate(gs, k, Group(gs[k].subject, gs[k].samples + [x]));
  }

  /** A group exists after adding a sample for the subjects that had one and for the sample's subject. */
  lemma AddSampleSubjects(gs: seq<Group>, x: Sample, s: string)
    ensures GroupIndex(AddSample(gs, x), s).Some? <==> GroupIndex(gs, s).Some? || s == x.subjectName
  {
    var r := AddSample(gs, x);
    match GroupIndex(gs, x.subjectName)
    case None =>
      assert r[|gs|].subject == x.subjectName;
      assert forall i :: 0 <= i < |gs| ==> r[i] == gs[i];
    case Some(k) =>
      assert forall i :: 0 <= i < |r| ==> r[i].subject == gs[i].subject;
  }

  lemma AddSampleCovers(gs: seq<Group>, xs: seq<Sample>, x: Sample)
    requires CoversSubjects(gs, xs)
    ensures CoversSubjects(AddSample(gs, x), xs + [x])
  {
    SubjectsSnoc(xs, x);
    forall s
      ensures s in Subjects(xs + [x]) <==> GroupIndex(AddSample(gs, x), s).Some?
    {
      AddSampleSubjects(gs, x, s);
    }
  }

  lemma OfSubjectNonEmpty(xs: seq<Sample>, s: string)
    ensures OfSubject(xs, s) != [] ==> s in Subjects(xs)
  {
    var r := OfSubject(xs, s);
    if r != [] {
      assert r[0] in xs;
    }
  }

  lemma AddSampleHolds(gs: seq<Group>, xs: seq<Sample>, x: Sample)
    requires DistinctSubjects(gs) && HoldsOwnSamples(gs, xs) && CoversSubjects(gs, xs)
    ensures HoldsOwnSamples(AddSample(gs, x), xs + [x])
  {
    var r := AddSample(gs, x);
    forall s
      ensures OfSubject(xs + [x], s) == OfSubject(xs, s) + (if x.subjectName == s then [x] else [])
    {
      OfSubjectSnoc(xs, x, s);
    }
    if GroupIndex(gs, x.subjectName).None? {
      OfSubjectNonEmpty(xs, x.subjectName);
    }
  }

  /**
   Grouping one split puts every sample into exactly the group of its subject, in
   dataset order, with one group per subject and no sample lost or repeated.
   */
  lemma {:induction false} GroupBySubjectPartitions(xs: seq<Sample>)
    ensures DistinctSubjects(GroupBySubject(xs))
    ensures HoldsOwnSamples(GroupBySubject(xs), xs)
    ensures CoversSubjects(GroupBySubject(xs), xs)
    ensures TotalSize(GroupBySubject(xs)) == |xs|
  {
    if xs != [] {
      var init := xs[..|xs| - 1];
      var x := xs[|xs| - 1];
      var gs := GroupBySubject(init);
      GroupBySubjectPartitions(init);
      assert init + [x] == xs;
      AddSampleDistinct(gs, x);
      AddSampleSize(gs, x);
      AddSampleCovers(gs, init, x);
      AddSampleHolds(gs, init, x);
    }
  }

  /** `all_subjects`: every subject name of the train, test and validation splits. */
  function AllSubjects(train: seq<Sample>, test: seq<Sample>, validation: seq<Sample>): (r: set<string>)
    ensures Subjects(train) <= r && Subjects(test) <= r && Subjects(validation) <= r
    ensures forall s :: s in r ==> s in Subjects(train) || s in Subjects(test) || s in Subjects(validation)
  {
    Subjects(train) + Subjects(test) + Subjects(validation)
  }

  /** Every subject listed has a group, hence a file, in at least one split, and every group's subject is listed. */
  lemma AllSubjectsAreGrouped(train: seq<Sample>, test: seq<Sample>, validation: seq<Sample>, s: string)
    ensures s in AllSubjects(train, test, validation) <==>
      GroupIndex(GroupBySubject(train), s).Some? || GroupIndex(GroupBySubject(test), s).Some?
      || GroupIndex(GroupBySubject(validation), s).Some?
  {
    GroupBySubjectPartitions(train);
    GroupBySubjectPartitions(test);
    GroupBySubjectPartitions(validation);
  }
}

=== FILE: tally.dfy ===
/** Counting and filtering over sequences: the running tallies of the benchmark loops. */
module Tally {

  /** The number of elements of `s` that satisfy `p`. */
  function Count<T>(s: seq<T>, p: T -> bool): (n: nat)
    ensures n <= |s|
  {
    if s == [] then 0
    else
      var n' := Count(s[..|s| - 1], p);
      assert forall i :: 0 <= i < |s| - 1 ==> s[..|s| - 1][i] == s[i];
      n' + (if p(s[|s| - 1]) then 1 else 0)
  }

  lemma CountSnoc<T>(s: seq<T>, x: T, p: T -> bool)
    ensures Count(s + [x], p) == Count(s, p) + (if p(x) then 1 else 0)
  {
    assert (s + [x])[..|s|] == s;
  }

  lemma {:induction false} CountConcat<T>(s: seq<T>, t: seq<T>, p: T -> bool)
    ensures Count(s + t, p) == Count(s, p) + Count(t, p)
    decreases |t|
  {
    if t == [] {
      assert s + t == s;
    } else {
      var t' := t[..|t| - 1];
      var x := t[|t| - 1];
      assert t == t' + [x];
      assert s + t == (s + t') + [x];
      CountConcat(s, t', p);
      CountSnoc(s + t', x, p);
      CountSnoc(t', x, p);
    }
  }

  /** The elements of `s` that satisfy `p`, in their original order. */
  function Filter<T>(s: seq<T>, p: T -> bool): (r: seq<T>)
    ensures |r| == Count(s, p)
    ensures forall x :: x in r ==> x in s && p(x)
    ensures forall x :: x in s && p(x) ==> x in r
  {
    if s == [] then []
    else
      var r' := Filter(s[..|s| - 1], p);
      assert forall x :: x in s[..|s| - 1] ==> x in s;
      assert forall x :: x in s ==> x in s[..|s| - 1] || x == s[|s| - 1];
      if p(s[|s| - 1]) then r' + [s[|s| - 1]] else r'
  }

  lemma FilterSnoc<T>(s: seq<T>, x: T, p: T -> bool)
    ensures Filter(s + [x], p) == if p(x) then Filter(s, p) + [x] else Filter(s, p)
  {
    assert (s + [x])[..|s|] == s;
  }
}

=== FILE: text.dfy ===
/**
 The few Python string operations the graders rely on, over `string` (`seq<char>`):
 ASCII case mapping, substring search (`in`, `str.find`), `str.strip()` and
 decimal rendering of integers.
 */
module Text {

  predicate IsLowerAscii(c: char) { 'a' <= c <= 'z' }

  predicate IsUpperAscii(c: char) { 'A' <= c <= 'Z' }

  function ToUpper(c: char): char {
    if IsLowerAscii(c) then (c as int - 32) as char else c
  }

  function ToLower(c: char): char {
    if IsUpperAscii(c) then (c as int + 32) as char else c
  }

  /** `str.upper()`, restricted to the ASCII letters. */
  function Upper(s: string): (r: string)
    ensures |r| == |s|
    ensures forall i :: 0 <= i < |s| ==> r[i] == ToUpper(s[i])
  {
    seq(|s|, i requires 0 <= i < |s| => ToUpper(s[i]))
  }

  /** `str.lower()`, restricted to the ASCII letters. */
  function Lower(s: string): (r: string)
    ensures |r| == |s|
    ensures forall i :: 0 <= i < |s| ==> r[i] == ToLower(s[i])
  {
    seq(|s|, i requires 0 <= i < |s| => ToLower(s[i]))
  }

  lemma UpperIdempotent(s: string)
    ensures Upper(Upper(s)) == Upper(s)
  {
  }

  /** `sub` occurs in `s` starting at position `i`. */
  predicate OccursAt(s: string, sub: string, i: int) {
    0 <= i && i + |sub| <= |s| && s[i..i + |sub|] == sub
  }

  /** Python's `sub in s` for strings. */
  predicate Contains(s: string, sub: string) {
    exists i :: 0 <= i <= |s| && OccursAt(s, sub, i)
  }

  /** `s.find(sub, from)`: the lowest position at or after `from` where `sub` occurs, or -1. */
  function FindFrom(s: string, sub: string, from: nat): (r: int)
    decreases |s| - from
    ensures r == -1 || (from <= r && OccursAt(s, sub, r))
    ensures r == -1 ==> forall i :: from <= i ==> !OccursAt(s, sub, i)
    ensures r >= 0 ==> forall i :: from <= i < r ==> !OccursAt(s, sub, i)
  {
    if from + |sub| > |s| then -1
    else if s[from..from + |sub|] == sub then from
    else FindFrom(s, sub, from + 1)
  }

  /** `s.find(sub)`: the position of the first occurrence of `sub`, or -1 when there is none. */
  function Find(s: string, sub: string): (r: int)
    ensures r >= 0 <==> Contains(s, sub)
    ensures r >= 0 ==> OccursAt(s, sub, r) && forall i :: 0 <= i < r ==> !OccursAt(s, sub, i)
    ensures r < 0 ==> r == -1
  {
    FindFrom(s, sub, 0)
  }

  /** Whitespace as Python's `str.isspace` defines it (the characters `str.strip()` removes). */
  predicate IsSpace(c: char) {
    || ('\t' <= c <= '\r')
    || ('\U{1C}' <= c <= ' ')
    || c == '\U{85}' || c == '\U{A0}' || c == '\U{1680}'
    || ('\U{2000}' <= c <= '\U{200A}')
    || c == '\U{2028}' || c == '\U{2029}' || c == '\U{202F}' || c == '\U{205F}' || c == '\U{3000}'
  }

  function LeadingSpaces(s: string): (n: nat)
    ensures n <= |s|
    ensures forall i :: 0 <= i < n ==> IsSpace(s[i])
    ensures n < |s| ==> !IsSpace(s[n])
  {
    if |s| > 0 && IsSpace(s[0]) then 1 + LeadingSpaces(s[1..]) else 0
  }

  function TrailingSpaces(s: string): (n: nat)
    ensures n <= |s|
    ensures forall i :: |s| - n <= i < |s| ==> IsSpace(s[i])
    ensures n < |s| ==> !IsSpace(s[|s| - n - 1])
  {
    if |s| > 0 && IsSpace(s[|s| - 1]) then 1 + TrailingSpaces(s[..|s| - 1]) else 0
  }

  /** `r` is `s` without its first `a` and last `b` characters, all of which are whitespace. */
  predicate TrimmedBy(s: string, a: int, b: int, r: string) {
    && 0 <= a && 0 <= b && a + b <= |s| && r == s[a..|s| - b]
    && (forall i :: 0 <= i < a ==> IsSpace(s[i]))
    && (forall i :: |s| - b <= i < |s| ==> IsSpace(s[i]))
  }

  /** Trimming only whitespace from the ends keeps every other character and adds none. */
  lemma TrimmedKeepsNonSpace(s: string, a: int, b: int, r: string)
    requires TrimmedBy(s, a, b, r)
    ensures forall c :: c in r ==> c in s
    ensures forall c :: c in s && !IsSpace(c) ==> c in r
  {
    assert forall j :: 0 <= j < |r| ==> r[j] == s[a + j];
    forall c | c in s && !IsSpace(c)
      ensures c in r
    {
      var i :| 0 <= i < |s| && s[i] == c;
      assert r[i - a] == c;
    }
  }

  /** `str.strip()`: drops leading and trailing whitespace and keeps everything else. */
  function Strip(s: string): (r: string)
    ensures |r| <= |s|
    ensures r == [] || (!IsSpace(r[0]) && !IsSpace(r[|r| - 1]))
    ensures forall c :: c in r ==> c in s
    ensures forall c :: c in s && !IsSpace(c) ==> c in r
    ensures exists a, b :: TrimmedBy(s, a, b, r)
  {
    var a := LeadingSpaces(s);
    var t := s[a..];
    var b := TrailingSpaces(t);
    var r := s[a..|s| - b];
    assert r == t[..|t| - b];
    assert TrimmedBy(s, a, b, r) by {
      assert forall i :: |s| - b <= i < |s| ==> s[i] == t[i - a];
    }
    TrimmedKeepsNonSpace(s, a, b, r);
    r
  }

  /** Stripping whitespace before upper-casing cannot remove or add an upper-case letter. */
  lemma UpperStripSameLetters(s: string, c: char)
    requires IsUpperAscii(c)
    ensures c in Upper(Strip(s)) <==> c in Upper(s)
  {
    var t := Strip(s);
    if c in Upper(t) {
      var i :| 0 <= i < |t| && Upper(t)[i] == c;
      assert t[i] in t;
      var j :| 0 <= j < |s| && s[j] == t[i];
      assert Upper(s)[j] == c;
    }
    if c in Upper(s) {
      var j :| 0 <= j < |s| && Upper(s)[j] == c;
      assert !IsSpace(s[j]);
      assert s[j] in s;
      var i :| 0 <= i < |t| && t[i] == s[j];
      assert Upper(t)[i] == c;
    }
  }

  function DigitChar(d: nat): char
    requires d < 10
  {
    ('0' as int + d) as char
  }

  /** `str(n)` for a natural number. */
  function NatToString(n: nat): (r: string)
    ensures |r| > 0
  {
    if n < 10 then [DigitChar(n)] else NatToString(n / 10) + [DigitChar(n % 10)]
  }

  /** `str(i)` for an integer. */
  function IntToString(i: int): string {
    if i < 0 then "-" + NatToString(-i) else NatToString(i)
  }
}

=== FILE: wrappers.dfy ===
/** The optional value used wherever the Python code returns `None`. */
module Wrappers {

  datatype Option<+T> = None | Some(value: T) {

    /** Returns the value held in Some, or the default when None. */
    function GetOr(default: T): T {
      match this
      case Some(v) => v
      case None => default
    }
  }
}
